=== FILE: README.md ===
# WLAN intent-compliance audit, modelled in Dafny

The audit script asks a Cisco DNA Center controller three things:

- which wireless controllers it manages;
- which SSIDs the site's wireless profile intends;
- which devices belong to which site.

It then has each controller run `show wlan summary` and parses the text each device returns. It prints one row per controller saying whether the SSIDs the device has configured match the intended list, in the same order. A small helper module builds the controller's REST URLs. It also polls a long-running task until the task ends, fails or times out.

This project models that logic as pure Dafny functions over immutable data and proves what it promises:

- `Outcomes`: `Option`, `Result` and the error kinds. These are the script's `sys.exit`, `KeyError`, `IndexError`, `ValueError`, `raise_for_status`, `TaskTimeoutError` and `TaskError` exits.
- `PyStr`: the Python string operations the parser relies on. These are `str.strip()` with Python's whitespace set, `str.split(sep)` and `join`, list slicing with negative bounds, and `int()` on text.
- `PyDict`: an insertion-ordered dict. Overwriting a key keeps its position, which decides the report's row order.
- `ApiHelper`: the token, intent and task URLs, and `wait_on_task`. The poller is a function over a trace of (HTTP status, task payload, clock reading) steps.
- `Inventory`: the reply checks and JSON projections of the device, profile, site and membership queries. It also has the device-to-site map the entry point folds together.
- `WlanParser`: `parse_output`, covering device selection, line slicing, tokenising, the field mapping and the five parallel columns. It also has a renderer for well-formed `show wlan summary` text, used to prove the parser inverts it.
- `Audit`: `audit_config`'s rows and verdict, and the entry point from the device query, through the wait on the command-runner task, to the report.
- `Scenarios`: an end-to-end example. A two-WLAN `show wlan summary` output for one controller yields a compliant report, a non-compliant one when the intended list is reordered, and "Not Assigned" when no site lists the device.

## Model

One-line predicates and projections that only name a source expression (`ApiHelper.HttpFailure`, `ApiHelper.TimedOut`, `WlanParser.Selected`, `WlanParser.SelectedIps`, `Inventory.Ips`, `PyDict.Keys` and the like) are definitions used by the contracts below; they have no row of their own.

| member | source | states |
|---|---|---|
| PyStr.Strip | compliance_audit.py:256 | the stripped text begins and ends with a non-whitespace character, or is empty |
| PyStr.StripIsInfix | compliance_audit.py:256 | the stripped text is a contiguous part of the input, and only whitespace lies before and after it |
| PyStr.StripUnique | compliance_audit.py:256 | any input made of whitespace, a trimmed middle and whitespace strips to exactly that middle |
| PyStr.StripEmptyIff | compliance_audit.py:256 | a text strips to the empty string exactly when every character of it is whitespace |
| PyStr.StripOneSpace | compliance_audit.py:256 | one more space in front of a text does not change what it strips to |
| PyStr.StripTrimmed | compliance_audit.py:256 | a text with no whitespace at either end strips to itself |
| PyStr.NoSeparatorInStrip | compliance_audit.py:255-256 | stripping a text free of a separator leaves it free of that separator |
| PyStr.StripIdempotent | compliance_audit.py:256 | stripping twice gives the same text as stripping once |
| PyStr.NotInStrip | compliance_audit.py:258 | stripping never introduces a character that was absent, so the SSID keeps no `/` |
| PyStr.Find | compliance_audit.py:255 | the leftmost position where the separator occurs, or none when it occurs nowhere |
| PyStr.Split | compliance_audit.py:255 | splitting yields at least one piece, and no piece contains the separator |
| PyStr.JoinSplit | compliance_audit.py:255 | joining the pieces of a split with the same separator gives back the original text |
| PyStr.SplitJoin | compliance_audit.py:255 | splitting a join gives back the pieces when each non-final piece meets its first separator exactly at its end and the last piece holds none |
| PyStr.SplitJoinChar | compliance_audit.py:248 | for a one-character separator, splitting a join gives back any pieces free of that character |
| PyStr.HeadBefore | compliance_audit.py:258 | the first piece of `split('/')` is the longest prefix without `/`, and `/` follows it unless it is the whole text |
| PyStr.HeadBeforeJoin | compliance_audit.py:258 | the text before the first `/` of `a + "/" + b` is `a` when `a` has no `/` |
| PyStr.Slice | compliance_audit.py:248 | a slice with Python's bounds holds the elements from the normalised start up to the normalised stop, and none when the stop is not past the start |
| PyStr.SliceDropsHeaderAndFooter | compliance_audit.py:248 | slicing `[6:-2]` keeps the elements from the seventh to the third-last, and nothing when there are fewer than eight |
| PyStr.SliceFramed | compliance_audit.py:248 | six header elements, any rows and two footer elements slice to exactly the rows |
| PyStr.ParseInt | compliance_audit.py:257 | a failed `int()` is a ValueError naming the text, and a success needs a non-blank text |
| PyStr.ParseIntRejects | compliance_audit.py:257 | a text that, once stripped, holds a character other than a digit or `_`, apart from a leading sign, is a ValueError |
| PyStr.ParseIntBlank | compliance_audit.py:257 | an empty or all-whitespace text is a ValueError |
| PyStr.ParseShow | compliance_audit.py:257 | `int(str(n)) == n` for every integer, negative ones included |
| PyDict.Get | compliance_audit.py:244-245 | a lookup finds a value exactly when the key is among the dict's keys |
| PyDict.Put | compliance_audit.py:245 | assigning a new key appends it to the key order, and overwriting a key leaves the order unchanged |
| PyDict.PutGet | compliance_audit.py:245 | after an assignment the assigned key reads the new value, and every other key reads what it did before |
| PyDict.PutValid | compliance_audit.py:245 | assignment never creates a second copy of a key |
| PyDict.PutIsUpdate | compliance_audit.py:245 | seen as a map, an ordered-dict assignment is a map update |
| ApiHelper.SplitOnceJoin | dnac_api_helper.py:109 | a text split at the first occurrence of a character absent from its first part gives back both parts |
| ApiHelper.TokenUrl | dnac_api_helper.py:72 | the token URL parses back as the system-API URL of `auth/token` with its address and version, and never parses as an intent URL |
| ApiHelper.IntentUrl | dnac_api_helper.py:109 | an intent API URL determines its address, version and API path when address and version hold no `/` |
| ApiHelper.TaskUrl | dnac_api_helper.py:161 | the task URL is the intent URL of `task/<id>`, and it parses back to that path |
| ApiHelper.Round | dnac_api_helper.py:163-180 | a 4xx or 5xx status is an HTTP error; otherwise a reply with `endTime` is returned; otherwise a passed truthy timeout is the timeout error; otherwise the round sleeps, then a missing `isError` is a KeyError, a true one is the task's error with its `progress` (a KeyError when that is missing), and a false one goes on |
| ApiHelper.Poll | dnac_api_helper.py:153-182 | polling stops at the first round that does not go on and with that round's outcome; it sleeps once per round before it; it is pending only when every round goes on |
| ApiHelper.StopsAt | dnac_api_helper.py:162-180 | polling stops in round k exactly when every earlier round went on and round k does not; it then has round k's outcome and one sleep per round that slept |
| ApiHelper.EndTimeWinsAt | dnac_api_helper.py:168-169 | round k returns the payload if and only if every earlier round went on and round k has a good reply with `endTime`, whatever `isError` says and however late; the run then slept k times |
| ApiHelper.TaskErrorAt | dnac_api_helper.py:175-180 | the task's own error ends round k if and only if every earlier round went on and round k has a good reply without `endTime`, before the timeout, with a true `isError` and that `progress`; the run then slept k + 1 times |
| ApiHelper.HttpErrorAt | dnac_api_helper.py:163-164 | an HTTP error ends round k if and only if every earlier round went on and round k's status is 4xx or 5xx |
| ApiHelper.TimeoutExactly | dnac_api_helper.py:171-173 | the timeout error ends round k if and only if all earlier rounds went on and round k has a good reply without `endTime`, a truthy timeout and a clock strictly past start plus timeout |
| ApiHelper.ErrorRoundSleeps | dnac_api_helper.py:175-180 | a run that ends in the task's own error has slept in every round, the last included |
| ApiHelper.PollBounded | dnac_api_helper.py:171-177 | with a positive timeout and a clock that advances one interval per round, polling ends by the first round whose elapsed intervals exceed the timeout |
| ApiHelper.DefaultPollEnds | dnac_api_helper.py:153 | with the default 3 s interval and 15 s timeout, and a clock that reads at least `start + k * 3` in round `k`, a trace of seven or more rounds ends polling, with at most seven rounds and six sleeps |
| ApiHelper.WaitOnTask | dnac_api_helper.py:153-180 | with the default timeout and interval, the poller returns a payload exactly when polling ends in `endTime`; the payload has `endTime` and is the reply of the round that stopped polling, the first round that did not go on; any other ending is that round's error |
| Inventory.DeviceIdMap | compliance_audit.py:86 | the device map's UUIDs are exactly those of the reply's records |
| Inventory.DeviceIdLastWins | compliance_audit.py:86 | when a UUID repeats, the last record carrying it supplies its address |
| Inventory.GetNetworkDeviceId | compliance_audit.py:76-86 | the device query succeeds exactly for status 200 and a non-empty body; a bad status and an empty body are distinct errors |
| Inventory.GetWirelessProfile | compliance_audit.py:163-173 | the intended SSIDs are the names of the first profile's SSID details, in order; no profile at all is an IndexError |
| Inventory.OnlyFirstProfileCounts | compliance_audit.py:173 | profiles after the first do not affect the intended SSID list |
| Inventory.GetSiteId | compliance_audit.py:190-201 | a good site reply gives one (id, name) pair per site record, in reply order |
| Inventory.GetDeviceFromSite | compliance_audit.py:219-232 | a good membership reply gives the member addresses in order, or None exactly when the site has no members |
| Inventory.AssignAll | compliance_audit.py:331-332 | every listed device maps to the site, and every other device keeps its earlier site |
| Inventory.SiteMap | compliance_audit.py:325-332 | the site fold succeeds exactly when every membership query succeeds |
| Inventory.SiteMapDomain | compliance_audit.py:325-332 | a device is in the site map exactly when some site lists it |
| Inventory.SiteMapLastWins | compliance_audit.py:327-332 | a device listed by several sites maps to the last site that lists it |
| WlanParser.NonEmptyAt | compliance_audit.py:256 | the positions listed are exactly those of the non-empty pieces, in increasing order |
| WlanParser.StripNonEmpty | compliance_audit.py:256 | there are no more values than pieces, and each value is trimmed |
| WlanParser.StripNonEmptyValues | compliance_audit.py:256 | the values are the non-empty pieces, in their order, each stripped |
| WlanParser.WhitespacePieceSurvives | compliance_audit.py:256 | an empty value appears exactly when some non-empty piece is all whitespace |
| WlanParser.StripNonEmptyCons | compliance_audit.py:256 | the first piece gives the first value when it is non-empty, and the rest give the rest |
| WlanParser.Tokens | compliance_audit.py:255-256 | every value of a row is trimmed and holds no run of two spaces |
| WlanParser.TokensOfCells | compliance_audit.py:255-256 | a row made of non-blank, trimmed cells with no double space, joined by two spaces, tokenises to exactly those cells |
| WlanParser.LeadingSpacesTokens | compliance_audit.py:255-256 | any number of spaces before a row that starts with a non-space leave its values unchanged |
| WlanParser.GapTokens | compliance_audit.py:255-256 | a cell followed by two or more spaces and a text starting with a non-space gives the cell as the first value and the text's values after it |
| WlanParser.TokensOfSpread | compliance_audit.py:255-256 | cells separated by runs of two or more spaces are exactly the row's values |
| WlanParser.TokensOfRuns | compliance_audit.py:255-256 | the same holds for a row indented by any number of spaces |
| WlanParser.StripCells | compliance_audit.py:256 | non-empty trimmed pieces survive the filter and the strip unchanged |
| WlanParser.ParseRow | compliance_audit.py:254-261 | a row parses exactly when it has at least five values and the first is an integer; the ID is that integer, the SSID is read from the second value, and the next three values are copied |
| WlanParser.SsidOf | compliance_audit.py:258 | the SSID is the stripped text before the first `/` of the column, or the whole column stripped when it has none; it holds no `/` and is trimmed |
| WlanParser.ParseRenderedRow | compliance_audit.py:254-261 | a row rendered from an ID, a profile `name/suffix` and three cells parses back to the ID, the stripped name and the three cells |
| WlanParser.Rows | compliance_audit.py:248 | the data lines are the split lines from the seventh to the third-last, and none when fewer than eight lines exist |
| WlanParser.FramedBlob | compliance_audit.py:248 | six header lines, any data lines and two footer lines, joined by newlines, give back exactly the data lines |
| WlanParser.ShortBlobHasNoRows | compliance_audit.py:248 | an output of fewer than eight lines has no data lines |
| WlanParser.Columns | compliance_audit.py:249-262 | row results gather into five aligned columns whose k-th entries are row k; otherwise the first failing row decides the error |
| WlanParser.ParseRows | compliance_audit.py:249-262 | the device parses exactly when every row does; the five columns then have one entry per row, in row order; otherwise the first bad row's error is returned |
| WlanParser.ParseDevice | compliance_audit.py:248-262 | a device without `show wlan summary` output is a KeyError; a parsed device has as many column entries as data lines |
| WlanParser.ParseSummary | compliance_audit.py:248-262 | a well-formed `show wlan summary` output parses to five aligned columns holding, row by row, the rendered WLANs with their SSIDs stripped |
| WlanParser.FirstOccurrences | compliance_audit.py:245 | the dict's key order holds each selected address once, and exactly the selected addresses |
| WlanParser.FirstOccurrencesOrder | compliance_audit.py:245 | an address placed before another was selected before any selection of the other |
| WlanParser.SelectDevices | compliance_audit.py:241-245 | selection succeeds exactly when every entry with a non-empty SUCCESS map has a known UUID; its keys are the selected addresses in order of first selection, without repeats |
| WlanParser.SelectLastWins | compliance_audit.py:242-245 | the last selected entry for an address supplies that address's SUCCESS map |
| WlanParser.Gather | compliance_audit.py:246-262 | per-device results gather into a dict with the same keys in the same order, or fail when any device fails |
| WlanParser.ParseAll | compliance_audit.py:246-262 | parsing every selected device keeps the key order and puts each device's parsed columns under its own key |
| WlanParser.ParseOutput | compliance_audit.py:234-264 | the output parses exactly when every selected UUID is known and every selected device's SUCCESS map parses; it then has one key per selected address, in order of first selection, each holding the parse of that address's SUCCESS map |
| WlanParser.ParseOutputLastWins | compliance_audit.py:241-262 | the parsed data for an address is the parse of the last selected entry for it |
| Audit.Compliance | compliance_audit.py:284-287 | the verdict is YES exactly when the configured SSIDs equal the intended ones as sequences |
| Audit.OrderMatters | compliance_audit.py:284 | two SSIDs listed in the other order do not comply, though they form the same multiset |
| Audit.AssignedSite | compliance_audit.py:289-298 | the site column is the mapped site, or "Not Assigned" when the device is unmapped |
| Audit.AuditConfig | compliance_audit.py:282-299 | one row per parsed device in key order, with the fixed family, the device's SSIDs, the intended list, the mapped or "Not Assigned" site, and YES exactly on equality |
| Audit.OneRowPerDevice | compliance_audit.py:282-299 | every parsed device appears in exactly one row, no address appears twice, and each row carries that device's SSIDs and verdict |
| Audit.TaskProgress | compliance_audit.py:317 | a finished task's `progress` is read, and a missing one is a KeyError |
| Audit.Run | compliance_audit.py:307-333 | a report exists exactly when the device query gives a non-empty 200 reply, the task finishes with a `progress`, every selected device is known and parses, a profile exists, and the site and every membership query answer 200; a failed device query or task decides the error; the rows are the selected addresses in order of first selection |
| Scenarios.SummaryParses | compliance_audit.py:248-262 | a two-WLAN `show wlan summary` output parses to IDs 106 and 107, the two SSIDs and the listed status, interface and mobility |
| Scenarios.FileParses | compliance_audit.py:241-264 | an output file with one successful controller parses to a one-entry dict keyed by that controller's address |
| Scenarios.CompliantReport | compliance_audit.py:282-299 | that controller, with the intended SSIDs in its own order, gets a YES row at its site |
| Scenarios.ReorderedReport | compliance_audit.py:284-285 | the same controller against the reversed intended list gets the not-in-sync row |
| Scenarios.UnassignedReport | compliance_audit.py:294-298 | a controller that no site lists gets the "Not Assigned" site |

## Left out

- HTTP transport, authentication and TLS are not modelled: `requests`, `HTTPBasicAuth` and the fresh token per call. A `Reply` carries the status code, the raw text and the decoded body instead.
- JSON decoding is not modelled. That includes the KeyErrors a reply without `response`, `commandResponses`, `SUCCESS`, `id` or `instanceUuid` would raise. Records arrive already decoded.
- Logging, the ANSI colour codes, `str()` of the SSID lists and the `tabulate` layout are not modelled. The report is the list of rows, and the verdict is its plain text.
- The real clock and `time.sleep` are replaced by the clock readings in the poll trace and the list of sleeps taken. Times are exact reals, so float rounding is not modelled.
- `read_wireless_config_from_device`, `get_command_output` and the `json.loads(progress)["fileId"]` step are not modelled. They only post a job and fetch a file. The run takes the task id and the fetched output file as given, and models the wait on the task and the `progress` lookup between them.
- A poll trace that ends while the task is still running yields `Unfinished`. The real poller would keep polling; `DefaultPollEnds` shows seven rounds of an advancing clock always suffice with the defaults.
- The `dnac_config` module is not part of this model. Its address, version and credentials are parameters.
- The `== []` guards at compliance_audit.py:141, 167, 194 and 223 compare a text to a list and never fire, so they are not modelled. An empty profile list therefore surfaces as the IndexError at line 173.
- The `device_ip` branch of `get_network_device_id` (compliance_audit.py:66-67) is not modelled, because the script always passes `params`.
- The trailing `return` at dnac_api_helper.py:182 is unreachable, because the loop only leaves by returning or raising. The model has no path to it.
- `isError` is modelled as present-true, present-false or missing. Other JSON truthy values are not distinguished.
- PyStr.Split: requires a non-empty separator. Python raises ValueError for an empty one, and the script never passes one.
- PyStr.ParseInt: accepts ASCII digits only, not other Unicode decimal digits. Its contract states only the error value and that the text is non-blank. ParseIntRejects and ParseIntBlank state which texts are refused, and ParseShow that every `str(n)` is read back as `n`.
- PyStr.ParseInt strips with `str.strip()`'s whitespace set, which includes `\x1c` to `\x1f`; CPython's `int()` does not skip those four. At compliance_audit.py:257 the text is a value that was already stripped, so no such character is at either end and the difference cannot show.
- PyStr.Strip: its contract states only that the result is trimmed. StripIsInfix and StripUnique pin the result down exactly.
- WlanParser.ParseDevice: its contract states the error for a missing command and the column lengths. ParseRows and ParseSummary state the contents.
- Audit.Run: its contract states when the run succeeds, the device and task errors, and the row addresses. It does not name the error of a later failing step; AuditConfig states the other columns.

=== FILE: api_helper.dfy ===
/** The controller REST helper: the shape of the URLs it calls and the task
    poller `wait_on_task`.

    The poller is modelled over an abstract trace instead of a real clock:
    round `i` of the loop sees `trace[i]`, holding the HTTP status of the
    task-status GET, the decoded `response` payload, and the value
    `time.time()` returns when the timeout is checked.  A trace that ends
    before the loop does yields `Pending`.
 */
module ApiHelper {
  import opened Outcomes

  // ---------------------------------------------------------------------
  // URLs
  // ---------------------------------------------------------------------

  const Scheme: string := "https://"
  const IntentPrefix: string := "dna/intent/api/"
  const SystemPrefix: string := "dna/system/api/"

  /** The three parts an intent URL is built from. */
  datatype Endpoint = Endpoint(ip: string, ver: string, api: string)

  /** `s` split at its first `c`: the text before and the text after. */
  function SplitOnce(s: string, c: char): (r: Option<(string, string)>)
    ensures r.Some? ==> s == r.value.0 + [c] + r.value.1 && c !in r.value.0
    ensures r.None? ==> c !in s
  {
    if |s| == 0 then None
    else if s[0] == c then Some(([], s[1..]))
    else
      match SplitOnce(s[1..], c)
      case None => None
      case Some((a, b)) =>
        assert s == [s[0]] + s[1..];
        Some(([s[0]] + a, b))
  }

  lemma {:induction false} SplitOnceJoin(a: string, c: char, b: string)
    requires c !in a
    ensures SplitOnce(a + [c] + b, c) == Some((a, b))
  {
    if |a| > 0 {
      assert (a + [c] + b)[1..] == a[1..] + [c] + b;
      SplitOnceJoin(a[1..], c, b);
      assert [a[0]] + a[1..] == a;
    } else {
      assert a + [c] + b == [c] + b;
    }
  }

  /** Reads the controller address, API version and API path back out of a
      URL of the form `https://<ip>/<prefix><ver>/<api>`; None for any other
      URL. */
  function ParseApiUrl(prefix: string, url: string): Option<Endpoint> {
    if |url| < |Scheme| || url[..|Scheme|] != Scheme then None
    else
      match SplitOnce(url[|Scheme|..], '/')
      case None => None
      case Some((ip, path)) =>
        if |path| < |prefix| || path[..|prefix|] != prefix then None
        else
          match SplitOnce(path[|prefix|..], '/')
          case None => None
          case Some((ver, api)) => Some(Endpoint(ip, ver, api))
  }

  /** An intent-API URL's parts; None for any other URL. */
  function ParseIntentUrl(url: string): Option<Endpoint> {
    ParseApiUrl(IntentPrefix, url)
  }

  /** A system-API URL's parts; None for any other URL. */
  function ParseSystemUrl(url: string): Option<Endpoint> {
    ParseApiUrl(SystemPrefix, url)
  }

  /** The token endpoint that `get_x_auth_token` posts to: the system-API URL
      of `auth/token`.  It therefore never reads as an intent URL. */
  function TokenUrl(ip: string, ver: string): (url: string)
    ensures '/' !in ip && '/' !in ver ==>
      ParseSystemUrl(url) == Some(Endpoint(ip, ver, "auth/token"))
    ensures '/' !in ip ==> ParseIntentUrl(url).None?
  {
    var path := SystemPrefix + ver + "/auth/token";
    var url := Scheme + ip + "/" + path;
    assert url[..|Scheme|] == Scheme;
    assert url[|Scheme|..] == ip + ['/'] + path;
    if '/' in ip then url
    else
      SplitOnceJoin(ip, '/', path);
      assert path[..|IntentPrefix|] == SystemPrefix;
      assert path[..|SystemPrefix|] == SystemPrefix;
      assert path[|SystemPrefix|..] == ver + ['/'] + "auth/token";
      if '/' in ver then url
      else
        SplitOnceJoin(ver, '/', "auth/token");
        url
  }

  /** The URL `get` and `post` call for the intent API path `api`.  It
      determines its address, version and path, as long as neither the
      address nor the version holds a `/`. */
  function IntentUrl(ip: string, ver: string, api: string): (url: string)
    ensures '/' !in ip && '/' !in ver ==> ParseIntentUrl(url) == Some(Endpoint(ip, ver, api))
  {
    var path := IntentPrefix + ver + "/" + api;
    var url := Scheme + ip + "/" + path;
    assert url[..|Scheme|] == Scheme;
    assert url[|Scheme|..] == ip + ['/'] + path;
    if '/' in ip || '/' in ver then url
    else
      SplitOnceJoin(ip, '/', path);
      assert path[..|IntentPrefix|] == IntentPrefix;
      assert path[|IntentPrefix|..] == ver + ['/'] + api;
      SplitOnceJoin(ver, '/', api);
      url
  }

  /** The task-status URL `wait_on_task` polls: the intent URL of
      `task/<id>`. */
  function TaskUrl(ip: string, ver: string, taskId: string): (url: string)
    ensures url == IntentUrl(ip, ver, "task/" + taskId)
    ensures '/' !in ip && '/' !in ver ==>
      ParseIntentUrl(url) == Some(Endpoint(ip, ver, "task/" + taskId))
  {
    var url := Scheme + ip + "/" + IntentPrefix + ver + "/" + "task/" + taskId;
    assert url == Scheme + ip + "/" + (IntentPrefix + ver + "/" + ("task/" + taskId));
    url
  }

  // ---------------------------------------------------------------------
  // wait_on_task
  // ---------------------------------------------------------------------

  /** `RETRY_INTERVAL`, in seconds. */
  const RetryInterval: real := 3.0

  /** The default `timeout` of `wait_on_task`: five retry intervals. */
  const DefaultTimeout: real := 5.0 * RetryInterval

  /** The task-status payload: whether it has an `endTime` key, its
      `isError` value (None when the key is missing) and its `progress`
      text (None when missing). */
  datatype TaskStatus = TaskStatus(hasEndTime: bool, isError: Option<bool>, progress: Option<string>)

  /** One round of the loop: status code of the GET, payload, clock reading. */
  datatype PollStep = PollStep(httpStatus: int, response: TaskStatus, now: real)

  datatype PollOutcome =
    | Done(response: TaskStatus)
    | Stopped(error: Error)
      /** The trace ran out while the task was still running. */
    | Pending

  /** How one round ends: the loop either goes round again or finishes,
      having slept in this round or not. */
  datatype RoundEnd = Again | Finished(outcome: PollOutcome, slept: bool)

  /** The result of a run: its outcome, how many rounds it used and every
      sleep it took, in order. */
  datatype PollRun = PollRun(outcome: PollOutcome, rounds: nat, sleeps: seq<real>)

  /** `raise_for_status()` raises for 4xx and 5xx codes. */
  predicate HttpFailure(status: int) {
    400 <= status < 600
  }

  /** A falsy timeout (None or zero) switches the timeout off. */
  predicate TimeoutEnabled(timeout: Option<real>) {
    timeout.Some? && timeout.value != 0.0
  }

  /** `timeout and (start_time + timeout < time.time())`. */
  predicate TimedOut(timeout: Option<real>, start: real, now: real) {
    TimeoutEnabled(timeout) && start + timeout.value < now
  }

  /** The round neither finishes, fails nor times out. */
  predicate Continues(timeout: Option<real>, start: real, step: PollStep) {
    && !HttpFailure(step.httpStatus)
    && !step.response.hasEndTime
    && !TimedOut(timeout, start, step.now)
    && step.response.isError == Some(false)
  }

  /** The round gets a good reply without `endTime` and is not timed out,
      so it sleeps and then reads `isError`. */
  predicate Proceeds(timeout: Option<real>, start: real, step: PollStep) {
    && !HttpFailure(step.httpStatus)
    && !step.response.hasEndTime
    && !TimedOut(timeout, start, step.now)
  }

  /** One pass through the loop body of `wait_on_task`, in its order: GET and
      status check, `endTime`, timeout, sleep, `isError`. */
  function Round(taskId: string, timeout: Option<real>, start: real, step: PollStep): (e: RoundEnd)
    ensures e.Again? <==> Continues(timeout, start, step)
    ensures e.Finished? ==> !e.outcome.Pending?
    ensures e.Finished? ==> (e.slept <==> Proceeds(timeout, start, step))
    ensures HttpFailure(step.httpStatus) ==> e.outcome == Stopped(HttpError(step.httpStatus))
    ensures !HttpFailure(step.httpStatus) && step.response.hasEndTime ==> e.outcome == Done(step.response)
    ensures e.Finished? && e.outcome.Done? ==> step.response.hasEndTime
    ensures !HttpFailure(step.httpStatus) && !step.response.hasEndTime && TimedOut(timeout, start, step.now) ==>
              e.outcome == Stopped(TaskTimeoutError(taskId, timeout.value))
    ensures Proceeds(timeout, start, step) && step.response.isError.None? ==>
              e.outcome == Stopped(KeyError("isError"))
    ensures Proceeds(timeout, start, step) && step.response.isError == Some(true) ==>
              e.outcome == if step.response.progress.Some?
                           then Stopped(TaskError(taskId, step.response.progress.value))
                           else Stopped(KeyError("progress"))
  {
    if HttpFailure(step.httpStatus) then Finished(Stopped(HttpError(step.httpStatus)), false)
    else if step.response.hasEndTime then Finished(Done(step.response), false)
    else if TimedOut(timeout, start, step.now) then
      Finished(Stopped(TaskTimeoutError(taskId, timeout.value)), false)
    else
      // time.sleep(retry_interval) happens here, before isError is read
      match step.response.isError
      case None => Finished(Stopped(KeyError("isError")), true)
      case Some(false) => Again
      case Some(true) =>
        match step.response.progress
        case None => Finished(Stopped(KeyError("progress")), true)
        case Some(p) => Finished(Stopped(TaskError(taskId, p)), true)
  }

  function Repeat(x: real, n: nat): (xs: seq<real>)
    ensures |xs| == n
    ensures forall i :: 0 <= i < n ==> xs[i] == x
  {
    if n == 0 then [] else [x] + Repeat(x, n - 1)
  }

  /** `wait_on_task(task_id, timeout, retry_interval)` started at clock
      reading `start`, run against `trace`. */
  function Poll(taskId: string, timeout: Option<real>, interval: real, start: real,
                trace: seq<PollStep>): (r: PollRun)
    ensures r.rounds <= |trace|
    ensures r.outcome.Pending? <==> forall i :: 0 <= i < |trace| ==> Continues(timeout, start, trace[i])
    ensures r.outcome.Pending? ==> r.rounds == |trace| && r.sleeps == Repeat(interval, |trace|)
    ensures !r.outcome.Pending? ==>
      && r.rounds >= 1
      && (forall i :: 0 <= i < r.rounds - 1 ==> Continues(timeout, start, trace[i]))
      && Round(taskId, timeout, start, trace[r.rounds - 1]).Finished?
      && Round(taskId, timeout, start, trace[r.rounds - 1]).outcome == r.outcome
      && r.sleeps == Repeat(interval, if Round(taskId, timeout, start, trace[r.rounds - 1]).slept
                                      then r.rounds else r.rounds - 1)
    decreases |trace|
  {
    if |trace| == 0 then PollRun(Pending, 0, [])
    else
      match Round(taskId, timeout, start, trace[0])
      case Finished(outcome, slept) =>
        PollRun(outcome, 1, if slept then [interval] else [])
      case Again =>
        var rest := Poll(taskId, timeout, interval, start, trace[1..]);
        assert forall i :: 1 <= i < |trace| ==> trace[1..][i - 1] == trace[i];
        PollRun(rest.outcome, rest.rounds + 1, [interval] + rest.sleeps)
  }

  /** Every round before `k` goes on. */
  predicate ReachesRound(timeout: Option<real>, start: real, trace: seq<PollStep>, k: nat)
    requires k <= |trace|
  {
    forall i :: 0 <= i < k ==> Continues(timeout, start, trace[i])
  }

  /** The run stops in round `k` exactly when every earlier round went on
      and round `k` does not; it then has round `k`'s outcome and has slept
      once per earlier round, and once more if round `k` slept. */
  lemma StopsAt(taskId: string, timeout: Option<real>, interval: real, start: real,
                trace: seq<PollStep>, k: nat)
    requires k < |trace|
    ensures (!Poll(taskId, timeout, interval, start, trace).outcome.Pending?
             && Poll(taskId, timeout, interval, start, trace).rounds == k + 1)
        <==> ReachesRound(timeout, start, trace, k) && !Continues(timeout, start, trace[k])
    ensures ReachesRound(timeout, start, trace, k) && !Continues(timeout, start, trace[k]) ==>
      && Poll(taskId, timeout, interval, start, trace).outcome == Round(taskId, timeout, start, trace[k]).outcome
      && Poll(taskId, timeout, interval, start, trace).sleeps
         == Repeat(interval, if Proceeds(timeout, start, trace[k]) then k + 1 else k)
  {
    var r := Poll(taskId, timeout, interval, start, trace);
    if ReachesRound(timeout, start, trace, k) && !Continues(timeout, start, trace[k]) {
      assert !r.outcome.Pending?;
      assert !Continues(timeout, start, trace[r.rounds - 1]);
    }
  }

  /** A good reply with `endTime` in round `k`, after `k` rounds that went
      on, is returned as it is, after `k` sleeps, whatever its `isError`
      says and however late it is; no other run returns in round `k`. */
  lemma EndTimeWinsAt(taskId: string, timeout: Option<real>, interval: real, start: real,
                      trace: seq<PollStep>, k: nat)
    requires k < |trace|
    ensures (Poll(taskId, timeout, interval, start, trace).outcome.Done?
             && Poll(taskId, timeout, interval, start, trace).rounds == k + 1)
        <==> (ReachesRound(timeout, start, trace, k)
              && !HttpFailure(trace[k].httpStatus) && trace[k].response.hasEndTime)
    ensures ReachesRound(timeout, start, trace, k)
            && !HttpFailure(trace[k].httpStatus) && trace[k].response.hasEndTime ==>
            Poll(taskId, timeout, interval, start, trace)
            == PollRun(Done(trace[k].response), k + 1, Repeat(interval, k))
  {
    StopsAt(taskId, timeout, interval, start, trace, k);
  }

  /** The task's own error ends round `k` exactly when every earlier round
      went on and round `k` got a good reply without `endTime`, before the
      timeout, with `isError` true and a `progress` text; the run has then
      slept `k + 1` times. */
  lemma TaskErrorAt(taskId: string, timeout: Option<real>, interval: real, start: real,
                    trace: seq<PollStep>, k: nat, progress: string)
    requires k < |trace|
    ensures (Poll(taskId, timeout, interval, start, trace).outcome == Stopped(TaskError(taskId, progress))
             && Poll(taskId, timeout, interval, start, trace).rounds == k + 1)
        <==> (ReachesRound(timeout, start, trace, k) && Proceeds(timeout, start, trace[k])
              && trace[k].response.isError == Some(true) && trace[k].response.progress == Some(progress))
    ensures Poll(taskId, timeout, interval, start, trace).outcome == Stopped(TaskError(taskId, progress))
            && Poll(taskId, timeout, interval, start, trace).rounds == k + 1 ==>
            Poll(taskId, timeout, interval, start, trace).sleeps == Repeat(interval, k + 1)
  {
    StopsAt(taskId, timeout, interval, start, trace, k);
  }

  /** A 4xx or 5xx status ends round `k` with an HTTP error, and nothing
      else does, once every earlier round went on. */
  lemma HttpErrorAt(taskId: string, timeout: Option<real>, interval: real, start: real,
                    trace: seq<PollStep>, k: nat)
    requires k < |trace|
    ensures (Poll(taskId, timeout, interval, start, trace).outcome == Stopped(HttpError(trace[k].httpStatus))
             && Poll(taskId, timeout, interval, start, trace).rounds == k + 1)
        <==> (ReachesRound(timeout, start, trace, k) && HttpFailure(trace[k].httpStatus))
  {
    StopsAt(taskId, timeout, interval, start, trace, k);
  }

  /** The poller raises the timeout error in round `k` exactly when every
      earlier round went on and round `k` got a good reply without
      `endTime` after the enabled timeout had strictly passed; `isError`
      plays no part. */
  lemma TimeoutExactly(taskId: string, timeout: Option<real>, interval: real,
                       start: real, trace: seq<PollStep>, k: nat)
    requires k < |trace|
    ensures (Poll(taskId, timeout, interval, start, trace).outcome
               == Stopped(TaskTimeoutError(taskId, if timeout.Some? then timeout.value else 0.0))
             && Poll(taskId, timeout, interval, start, trace).rounds == k + 1)
        <==> (&& ReachesRound(timeout, start, trace, k)
              && !HttpFailure(trace[k].httpStatus)
              && !trace[k].response.hasEndTime
              && TimeoutEnabled(timeout)
              && start + timeout.value < trace[k].now)
  {
    StopsAt(taskId, timeout, interval, start, trace, k);
  }

  /** The task's own error is reported only after the round has slept. */
  lemma ErrorRoundSleeps(taskId: string, timeout: Option<real>, interval: real, start: real,
                         trace: seq<PollStep>)
    requires Poll(taskId, timeout, interval, start, trace).outcome.Stopped?
    requires Poll(taskId, timeout, interval, start, trace).outcome.error.TaskError?
    ensures |Poll(taskId, timeout, interval, start, trace).sleeps|
         == Poll(taskId, timeout, interval, start, trace).rounds
  {
  }

  /** The clock readings a run can see: each round comes at least one
      sleep after the one before. */
  predicate ClockAdvances(start: real, interval: real, trace: seq<PollStep>) {
    forall k :: 0 <= k < |trace| ==> trace[k].now >= start + (k as real) * interval
  }

  /** With a positive timeout and interval, polling stops no later than the
      first round `k` whose `k * interval` exceeds the timeout. */
  lemma PollBounded(taskId: string, timeout: real, interval: real, start: real,
                    trace: seq<PollStep>, k: nat)
    requires timeout > 0.0 && interval > 0.0
    requires ClockAdvances(start, interval, trace)
    requires k < |trace| && (k as real) * interval > timeout
    ensures !Poll(taskId, Some(timeout), interval, start, trace).outcome.Pending?
    ensures Poll(taskId, Some(timeout), interval, start, trace).rounds <= k + 1
  {
    var r := Poll(taskId, Some(timeout), interval, start, trace);
    assert TimedOut(Some(timeout), start, trace[k].now);
    assert !Continues(Some(timeout), start, trace[k]);
  }

  /** With the defaults (3 s interval, 15 s timeout) a run takes at most
      seven rounds and six sleeps. */
  lemma DefaultPollEnds(taskId: string, start: real, trace: seq<PollStep>)
    requires ClockAdvances(start, RetryInterval, trace)
    requires |trace| >= 7
    ensures !Poll(taskId, Some(DefaultTimeout), RetryInterval, start, trace).outcome.Pending?
    ensures Poll(taskId, Some(DefaultTimeout), RetryInterval, start, trace).rounds <= 7
    ensures |Poll(taskId, Some(DefaultTimeout), RetryInterval, start, trace).sleeps| <= 6
  {
    PollBounded(taskId, DefaultTimeout, RetryInterval, start, trace, 6);
    var r := Poll(taskId, Some(DefaultTimeout), RetryInterval, start, trace);
    if r.rounds == 7 {
      // the seventh reading is at least 18 s after the start: no sleep then
      assert TimedOut(Some(DefaultTimeout), start, trace[6].now);
      assert !Round(taskId, Some(DefaultTimeout), start, trace[6]).slept;
    }
  }

  /** `wait_on_task(task_id)` with its default timeout and interval: the
      payload of the first round that stopped polling, when that round saw
      `endTime`, or the error that stopped it.
      A trace that ends while the task still runs is `Unfinished`. */
  function WaitOnTask(taskId: string, start: real, trace: seq<PollStep>): (r: Result<TaskStatus>)
    ensures r.Success? <==> Poll(taskId, Some(DefaultTimeout), RetryInterval, start, trace).outcome.Done?
    ensures r.Success? ==> r.value.hasEndTime
    ensures r.Success? ==> Poll(taskId, Some(DefaultTimeout), RetryInterval, start, trace).outcome == Done(r.value)
    ensures r.Success? ==>
      exists k :: 0 <= k < |trace| && ReachesRound(Some(DefaultTimeout), start, trace, k)
        && !Continues(Some(DefaultTimeout), start, trace[k]) && r.value == trace[k].response
    ensures Poll(taskId, Some(DefaultTimeout), RetryInterval, start, trace).outcome.Stopped? ==>
              r == Failure(Poll(taskId, Some(DefaultTimeout), RetryInterval, start, trace).outcome.error)
    ensures Poll(taskId, Some(DefaultTimeout), RetryInterval, start, trace).outcome.Pending? ==>
              r == Failure(Unfinished(taskId))
  {
    var run := Poll(taskId, Some(DefaultTimeout), RetryInterval, start, trace);
    match run.outcome
    case Done(response) =>
      assert response == trace[run.rounds - 1].response;
      Success(response)
    case Stopped(e) => Failure(e)
    case Pending => Failure(Unfinished(taskId))
  }
}

=== FILE: audit.dfy ===
/** `audit_config` and the script's entry point, without the colours, the
    logging and the `tabulate` layout: the report is the list of rows that
    would be tabulated.
 */
module Audit {
  import opened Outcomes
  import opened PyDict
  import opened Inventory
  import opened WlanParser
  import ApiHelper

  /** The device family column, the same for every row. */
  const WirelessController: string := "Wireless Controller"

  /** The site column of a device that no site lists. */
  const NotAssigned: string := "Not Assigned"

  /** The compliance column. */
  datatype Verdict = Yes | NotInSync {
    function Text(): string {
      match this
      case Yes => "YES"
      case NotInSync => "NO, Device and DNAC are not in SYNC"
    }
  }

  /** One row of the report: device address, family, site, the SSIDs the
      device reports, the SSIDs the profile intends, and the verdict. */
  datatype ReportRow = ReportRow(ip: string, family: string, site: string,
                                 configured: seq<string>, intended: seq<string>, compliance: Verdict)

  /** A device complies exactly when its SSID list equals the intended one,
      element by element and in the same order. */
  function Compliance(configured: seq<string>, intended: seq<string>): (v: Verdict)
    ensures v == Yes <==> configured == intended
  {
    if configured != intended then NotInSync else Yes
  }

  /** The same SSIDs in another order do not comply. */
  lemma OrderMatters(a: string, b: string)
    requires a != b
    ensures multiset([a, b]) == multiset([b, a])
    ensures Compliance([a, b], [b, a]) == NotInSync
  {
    assert [a, b][0] != [b, a][0];
  }

  /** The site column: the mapped site, or "Not Assigned" (the KeyError
      `audit_config` catches). */
  function AssignedSite(siteMap: map<string, string>, ip: string): (site: string)
    ensures ip in siteMap ==> site == siteMap[ip]
    ensures ip !in siteMap ==> site == NotAssigned
  {
    if ip in siteMap then siteMap[ip] else NotAssigned
  }

  function RowFor(ip: string, data: WlanData, siteMap: map<string, string>, intended: seq<string>): ReportRow {
    ReportRow(ip, WirelessController, AssignedSite(siteMap, ip), data.ssids, intended,
              Compliance(data.ssids, intended))
  }

  /** `audit_config(parsed, device_site_dict, intended)`: one row per parsed
      device, in the dict's key order. */
  function AuditConfig(parsed: Dict<WlanData>, siteMap: map<string, string>, intended: seq<string>): (table: seq<ReportRow>)
    ensures |table| == |parsed.items|
    ensures forall i :: 0 <= i < |table| ==>
      && table[i].ip == Keys(parsed)[i]
      && table[i].family == WirelessController
      && table[i].configured == parsed.items[i].1.ssids
      && table[i].intended == intended
      && (table[i].compliance == Yes <==> parsed.items[i].1.ssids == intended)
      && (table[i].ip in siteMap ==> table[i].site == siteMap[table[i].ip])
      && (table[i].ip !in siteMap ==> table[i].site == NotAssigned)
  {
    seq(|parsed.items|, i requires 0 <= i < |parsed.items| =>
      RowFor(parsed.items[i].0, parsed.items[i].1, siteMap, intended))
  }

  /** Every parsed device gets exactly one row, and the row's SSIDs and
      verdict are those of the device's entry in the dict. */
  lemma OneRowPerDevice(parsed: Dict<WlanData>, siteMap: map<string, string>, intended: seq<string>, ip: string)
    requires Valid(parsed)
    ensures ip in Keys(parsed) <==> exists i :: 0 <= i < |AuditConfig(parsed, siteMap, intended)|
                                               && AuditConfig(parsed, siteMap, intended)[i].ip == ip
    ensures forall i, j :: 0 <= i < j < |AuditConfig(parsed, siteMap, intended)| ==>
              AuditConfig(parsed, siteMap, intended)[i].ip != AuditConfig(parsed, siteMap, intended)[j].ip
    ensures forall i :: 0 <= i < |AuditConfig(parsed, siteMap, intended)| ==>
              && Get(parsed, AuditConfig(parsed, siteMap, intended)[i].ip).Some?
              && var data := Get(parsed, AuditConfig(parsed, siteMap, intended)[i].ip).value;
                 && AuditConfig(parsed, siteMap, intended)[i].configured == data.ssids
                 && (AuditConfig(parsed, siteMap, intended)[i].compliance == Yes <==> data.ssids == intended)
  {
    var table := AuditConfig(parsed, siteMap, intended);
    var ks := Keys(parsed);
    if ip in ks {
      var i :| 0 <= i < |ks| && ks[i] == ip;
      assert table[i].ip == ip;
    }
    forall i | 0 <= i < |table|
      ensures Get(parsed, table[i].ip) == Some(parsed.items[i].1)
    {
      GetAt(parsed, i);
    }
  }

  // ---------------------------------------------------------------------
  // The entry point
  // ---------------------------------------------------------------------

  /** What the controller answers: the device query, the task the
      command-runner job became (its id, the clock reading when polling
      starts and the task-status replies), the output file, the profile
      query, the site query, and the membership query for each site id. */
  datatype Controller = Controller(
    devices: Reply<seq<DeviceRecord>>,
    taskId: string,
    taskStart: real,
    taskTrace: seq<ApiHelper.PollStep>,
    output: seq<CommandEntry>,
    profiles: Reply<seq<WirelessProfile>>,
    sites: Reply<seq<SiteRecord>>,
    membership: string -> Reply<seq<MemberRecord>>)

  /** `task_status["progress"]`: the file reference of a finished task. */
  function TaskProgress(status: ApiHelper.TaskStatus): (r: Result<string>)
    ensures r.Success? <==> status.progress.Some?
    ensures r.Success? ==> r.value == status.progress.value
    ensures r.Failure? ==> r.error == KeyError("progress")
  {
    match status.progress
    case None => Failure(KeyError("progress"))
    case Some(p) => Success(p)
  }

  /** The task the run waits on finishes with `endTime` and a `progress`. */
  predicate TaskDelivers(c: Controller) {
    && ApiHelper.WaitOnTask(c.taskId, c.taskStart, c.taskTrace).Success?
    && ApiHelper.WaitOnTask(c.taskId, c.taskStart, c.taskTrace).value.progress.Some?
  }

  /** The entry point from the device query to the report, in the order of
      the script's `__main__` block; the first failing step stops the run.
      It succeeds exactly when the device query answers 200 with a body,
      the task finishes with a `progress`, every selected device is known
      and its output parses, the profile query answers 200 with a profile,
      and the site query and every site's membership query answer 200. */
  function Run(c: Controller): (r: Result<seq<ReportRow>>)
    ensures r.Success? <==>
      && c.devices.status == 200 && c.devices.text != ""
      && TaskDelivers(c)
      && EveryDeviceParses(c.output, GetNetworkDeviceId(c.devices).value)
      && c.profiles.status == 200 && |c.profiles.body| > 0
      && c.sites.status == 200
      && (forall j :: 0 <= j < |c.sites.body| ==> c.membership(c.sites.body[j].id).status == 200)
    ensures c.devices.status != 200 ==> r == Failure(BadStatus(c.devices.status))
    ensures c.devices.status == 200 && c.devices.text == "" ==> r == Failure(NoDevice)
    ensures GetNetworkDeviceId(c.devices).Success?
            && ApiHelper.WaitOnTask(c.taskId, c.taskStart, c.taskTrace).Failure? ==>
            r == Failure(ApiHelper.WaitOnTask(c.taskId, c.taskStart, c.taskTrace).error)
    ensures GetNetworkDeviceId(c.devices).Success?
            && ApiHelper.WaitOnTask(c.taskId, c.taskStart, c.taskTrace).Success?
            && ApiHelper.WaitOnTask(c.taskId, c.taskStart, c.taskTrace).value.progress.None? ==>
            r == Failure(KeyError("progress"))
    ensures r.Success? ==>
      var ids := GetNetworkDeviceId(c.devices).value;
      && |r.value| == |FirstOccurrences(SelectedIps(c.output, ids))|
      && forall i :: 0 <= i < |r.value| ==> r.value[i].ip == FirstOccurrences(SelectedIps(c.output, ids))[i]
  {
    var ids :- GetNetworkDeviceId(c.devices);
    var status :- ApiHelper.WaitOnTask(c.taskId, c.taskStart, c.taskTrace);
    var fileRef :- TaskProgress(status);
    var parsed :- ParseOutput(c.output, ids);
    var intended :- GetWirelessProfile(c.profiles);
    var sites :- GetSiteId(c.sites);
    var siteMap :- SiteMap(sites, c.membership);
    Success(AuditConfig(parsed, siteMap, intended))
  }
}

=== FILE: inventory.dfy ===
/** The inventory queries of the audit script and the device-to-site map
    its entry point builds from them.

    Each query is one GET whose reply is checked and then projected.  The
    HTTP call and the JSON decoding are not modelled: a `Reply` carries the
    status code, the raw body text and the already-decoded body.
 */
module Inventory {
  import opened Outcomes

  /** A controller reply: status code, body text, decoded body. */
  datatype Reply<T> = Reply(status: int, text: string, body: T)

  /** An element of the `network-device` response list. */
  datatype DeviceRecord = DeviceRecord(instanceUuid: string, managementIpAddress: string)

  /** An element of a wireless profile's `profileDetails.ssidDetails` list. */
  datatype SsidDetail = SsidDetail(name: string)

  /** An element of the `wireless/profile` response list. */
  datatype WirelessProfile = WirelessProfile(ssidDetails: seq<SsidDetail>)

  /** An element of the `site` response list. */
  datatype SiteRecord = SiteRecord(id: string, groupNameHierarchy: string)

  /** An element of a `membership` reply's `device.response` list. */
  datatype MemberRecord = MemberRecord(managementIpAddress: string)

  /** The one-entry dict `{site id: site name}` the site query yields per site. */
  datatype Site = Site(id: string, name: string)

  // ---------------------------------------------------------------------
  // get_network_device_id
  // ---------------------------------------------------------------------

  /** `{ele["instanceUuid"]: ele["managementIpAddress"] for ele in records}`. */
  function DeviceIdMap(records: seq<DeviceRecord>): (m: map<string, string>)
    ensures m.Keys == set i | 0 <= i < |records| :: records[i].instanceUuid
    decreases |records|
  {
    if |records| == 0 then map[]
    else
      var prefix := records[..|records| - 1];
      var last := records[|records| - 1];
      var m := DeviceIdMap(prefix);
      assert (set i | 0 <= i < |records| :: records[i].instanceUuid)
          == (set i | 0 <= i < |prefix| :: prefix[i].instanceUuid) + {last.instanceUuid} by {
        forall i | 0 <= i < |prefix| ensures prefix[i] == records[i] { }
      }
      m[last.instanceUuid := last.managementIpAddress]
  }

  /** When a UUID repeats, the last record carrying it decides its address. */
  lemma {:induction false} DeviceIdLastWins(records: seq<DeviceRecord>, j: nat)
    requires j < |records|
    requires forall i :: j < i < |records| ==> records[i].instanceUuid != records[j].instanceUuid
    ensures DeviceIdMap(records)[records[j].instanceUuid] == records[j].managementIpAddress
    decreases |records|
  {
    if j < |records| - 1 {
      var prefix := records[..|records| - 1];
      assert prefix[j] == records[j];
      DeviceIdLastWins(prefix, j);
    }
  }

  /** The device query: a non-200 status or an empty body ends the run. */
  function GetNetworkDeviceId(reply: Reply<seq<DeviceRecord>>): (r: Result<map<string, string>>)
    ensures r.Success? <==> reply.status == 200 && reply.text != ""
    ensures reply.status != 200 ==> r == Failure(BadStatus(reply.status))
    ensures reply.status == 200 && reply.text == "" ==> r == Failure(NoDevice)
    ensures r.Success? ==> r.value.Keys == set i | 0 <= i < |reply.body| :: reply.body[i].instanceUuid
  {
    if reply.status != 200 then Failure(BadStatus(reply.status))
    else if reply.text == "" then Failure(NoDevice)
    else Success(DeviceIdMap(reply.body))
  }

  // ---------------------------------------------------------------------
  // get_wireless_profile
  // ---------------------------------------------------------------------

  /** The SSID names of the FIRST wireless profile, in order; no profile at
      all is an IndexError. */
  function GetWirelessProfile(reply: Reply<seq<WirelessProfile>>): (r: Result<seq<string>>)
    ensures r.Success? <==> reply.status == 200 && |reply.body| > 0
    ensures reply.status == 200 && |reply.body| == 0 ==> r == Failure(IndexError)
    ensures r.Success? ==>
      && |r.value| == |reply.body[0].ssidDetails|
      && forall i :: 0 <= i < |r.value| ==> r.value[i] == reply.body[0].ssidDetails[i].name
  {
    if reply.status != 200 then Failure(BadStatus(reply.status))
    else if |reply.body| == 0 then Failure(IndexError)
    else
      var details := reply.body[0].ssidDetails;
      Success(seq(|details|, i requires 0 <= i < |details| => details[i].name))
  }

  /** Only the first profile is consulted: the others can be anything. */
  lemma OnlyFirstProfileCounts(reply: Reply<seq<WirelessProfile>>, others: seq<WirelessProfile>)
    requires |reply.body| > 0
    ensures GetWirelessProfile(reply)
         == GetWirelessProfile(Reply(reply.status, reply.text, [reply.body[0]] + others))
  {
  }

  // ---------------------------------------------------------------------
  // get_site_id and get_device_from_site
  // ---------------------------------------------------------------------

  /** The site query: one `{id: name}` entry per site, in reply order. */
  function GetSiteId(reply: Reply<seq<SiteRecord>>): (r: Result<seq<Site>>)
    ensures r.Success? <==> reply.status == 200
    ensures r.Success? ==>
      && |r.value| == |reply.body|
      && forall i :: 0 <= i < |r.value| ==>
           r.value[i].id == reply.body[i].id && r.value[i].name == reply.body[i].groupNameHierarchy
  {
    if reply.status != 200 then Failure(BadStatus(reply.status))
    else
      var recs := reply.body;
      Success(seq(|recs|, i requires 0 <= i < |recs| => Site(recs[i].id, recs[i].groupNameHierarchy)))
  }

  function Ips(members: seq<MemberRecord>): (ips: seq<string>)
    ensures |ips| == |members|
    ensures forall i :: 0 <= i < |ips| ==> ips[i] == members[i].managementIpAddress
  {
    seq(|members|, i requires 0 <= i < |members| => members[i].managementIpAddress)
  }

  /** The membership query: the addresses of the site's devices, or None
      for a site without devices. */
  function GetDeviceFromSite(reply: Reply<seq<MemberRecord>>): (r: Result<Option<seq<string>>>)
    ensures r.Success? <==> reply.status == 200
    ensures r.Success? ==> (r.value.None? <==> |reply.body| == 0)
    ensures r.Success? && r.value.Some? ==> r.value.value == Ips(reply.body) && |r.value.value| > 0
  {
    if reply.status != 200 then Failure(BadStatus(reply.status))
    else if |reply.body| > 0 then Success(Some(Ips(reply.body)))
    else Success(None)
  }

  // ---------------------------------------------------------------------
  // The device-to-site map built by the entry point
  // ---------------------------------------------------------------------

  /** `for device in devices: device_site_dict[device] = site`. */
  function AssignAll(m: map<string, string>, devices: seq<string>, site: string): (r: map<string, string>)
    ensures r.Keys == m.Keys + set d | d in devices
    ensures forall d :: d in devices ==> r[d] == site
    ensures forall d :: d in m && d !in devices ==> r[d] == m[d]
    decreases |devices|
  {
    if |devices| == 0 then m
    else
      assert forall d :: d in devices <==> d == devices[0] || d in devices[1..];
      AssignAll(m[devices[0] := site], devices[1..], site)
  }

  /** The addresses the controller lists for the site; empty when the
      membership reply is empty. */
  function MembersOf(membership: string -> Reply<seq<MemberRecord>>, site: Site): seq<string> {
    Ips(membership(site.id).body)
  }

  /** The fold over all sites in order: a site with no members adds nothing;
      a device in several sites keeps the last one; any failed membership
      query ends the run with the first failure. */
  function SiteMap(sites: seq<Site>, membership: string -> Reply<seq<MemberRecord>>): (r: Result<map<string, string>>)
    ensures r.Success? <==> forall j :: 0 <= j < |sites| ==> membership(sites[j].id).status == 200
    decreases |sites|
  {
    if |sites| == 0 then Success(map[])
    else
      var prefix := sites[..|sites| - 1];
      var last := sites[|sites| - 1];
      assert forall j :: 0 <= j < |prefix| ==> prefix[j] == sites[j];
      var m :- SiteMap(prefix, membership);
      var devices :- GetDeviceFromSite(membership(last.id));
      match devices
      case None => Success(m)
      case Some(ips) => Success(AssignAll(m, ips, last.name))
  }

  /** A device is in the map exactly when some site lists it. */
  lemma {:induction false} SiteMapDomain(sites: seq<Site>, membership: string -> Reply<seq<MemberRecord>>, ip: string)
    requires SiteMap(sites, membership).Success?
    ensures ip in SiteMap(sites, membership).value
        <==> exists j :: 0 <= j < |sites| && ip in MembersOf(membership, sites[j])
    decreases |sites|
  {
    if |sites| > 0 {
      var prefix := sites[..|sites| - 1];
      var last := sites[|sites| - 1];
      SiteMapDomain(prefix, membership, ip);
      assert forall j :: 0 <= j < |prefix| ==> prefix[j] == sites[j];
      if exists j :: 0 <= j < |sites| && ip in MembersOf(membership, sites[j]) {
        var j :| 0 <= j < |sites| && ip in MembersOf(membership, sites[j]);
        if j < |prefix| {
          assert ip in MembersOf(membership, prefix[j]);
        }
      }
    }
  }

  /** A device listed by several sites ends up with the name of the last one. */
  lemma {:induction false} SiteMapLastWins(sites: seq<Site>, membership: string -> Reply<seq<MemberRecord>>,
                                           ip: string, j: nat)
    requires SiteMap(sites, membership).Success?
    requires j < |sites| && ip in MembersOf(membership, sites[j])
    requires forall k :: j < k < |sites| ==> ip !in MembersOf(membership, sites[k])
    ensures ip in SiteMap(sites, membership).value
    ensures SiteMap(sites, membership).value[ip] == sites[j].name
    decreases |sites|
  {
    var prefix := sites[..|sites| - 1];
    var last := sites[|sites| - 1];
    assert forall k :: 0 <= k < |prefix| ==> prefix[k] == sites[k];
    if j < |sites| - 1 {
      SiteMapLastWins(prefix, membership, ip, j);
      assert ip !in MembersOf(membership, last);
    }
  }
}

=== FILE: outcomes.dfy ===
/** Failure-compatible wrappers and the error taxonomy of the audit script.

    The script has no structured error returns: every failure either logs and
    calls `sys.exit()` or lets a Python exception escape.  Here each of those
    paths becomes a `Failure` carrying an `Error` value, so that the pure model
    can be stated (and proved) without process termination.
 */
module Outcomes {

  datatype Option<+T> = None | Some(value: T)

  datatype Result<+T> = Success(value: T) | Failure(error: Error) {

    predicate IsFailure() {
      Failure?
    }

    function PropagateFailure<U>(): Result<U>
      requires Failure?
    {
      Failure(error)
    }

    function Extract(): T
      requires Success?
    {
      value
    }
  }

  /** Every way a run of the script can stop early. */
  datatype Error =
      /** A dictionary lookup on a missing key. */
    | KeyError(key: string)
      /** A list index past the end (`values[k]`, `profile_json[0]`). */
    | IndexError
      /** `int(...)` on text that is not a decimal integer. */
    | ValueError(text: string)
      /** A controller reply whose status is not the expected one; the script exits. */
    | BadStatus(status: int)
      /** An empty network-device reply; the script exits. */
    | NoDevice
      /** `raise_for_status()` on a 4xx or 5xx task-status reply. */
    | HttpError(status: int)
      /** `TaskTimeoutError` raised by the task poller. */
    | TaskTimeoutError(taskId: string, timeout: real)
      /** `TaskError` raised by the task poller, carrying the task's `progress` text. */
    | TaskError(taskId: string, progress: string)
      /** The modelled task-status replies ran out while the task was still
         running: the real poller would have kept polling. */
    | Unfinished(taskId: string)
}

=== FILE: pydict.dfy ===
/** A Python `dict` as the parser uses it: key/value pairs kept in
    insertion order.  Assigning to a key that is already present replaces
    its value but leaves the key where it first went in; assigning to a new
    key appends it.  Iterating `d.keys()` walks the keys in that order.
 */
module PyDict {
  import opened Outcomes

  /** Keys are strings: the device IP addresses. */
  datatype Dict<V> = Dict(items: seq<(string, V)>)

  function Empty<V>(): Dict<V> {
    Dict([])
  }

  /** `list(d.keys())`. */
  function Keys<V>(d: Dict<V>): (ks: seq<string>)
    ensures |ks| == |d.items|
    ensures forall i :: 0 <= i < |ks| ==> ks[i] == d.items[i].0
  {
    seq(|d.items|, i requires 0 <= i < |d.items| => d.items[i].0)
  }

  predicate Distinct<T(==)>(xs: seq<T>) {
    forall i, j :: 0 <= i < j < |xs| ==> xs[i] != xs[j]
  }

  /** Every dict Python can build: no key twice. */
  predicate Valid<V>(d: Dict<V>) {
    Distinct(Keys(d))
  }

  /** `d.get(k)`: the value stored under `k`, if any. */
  function Get<V>(d: Dict<V>, k: string): (r: Option<V>)
    ensures r.Some? <==> k in Keys(d)
    decreases |d.items|
  {
    if |d.items| == 0 then None
    else if d.items[0].0 == k then Some(d.items[0].1)
    else
      assert Keys(d) == [d.items[0].0] + Keys(Dict(d.items[1..]));
      Get(Dict(d.items[1..]), k)
  }

  /** In a valid dict, the value at position `i` is what `Get` finds. */
  lemma GetAt<V>(d: Dict<V>, i: nat)
    requires Valid(d) && i < |d.items|
    ensures Get(d, d.items[i].0) == Some(d.items[i].1)
    decreases i
  {
    if i > 0 {
      var tail := Dict(d.items[1..]);
      assert Keys(tail) == Keys(d)[1..];
      assert d.items[0].0 != d.items[i].0 by {
        assert Keys(d)[0] != Keys(d)[i];
      }
      GetAt(tail, i - 1);
    }
  }

  /** `d[k] = v`: a known key keeps its place, a new key goes last. */
  function Put<V>(d: Dict<V>, k: string, v: V): (r: Dict<V>)
    ensures Keys(r) == if k in Keys(d) then Keys(d) else Keys(d) + [k]
    decreases |d.items|
  {
    if |d.items| == 0 then Dict([(k, v)])
    else
      var tail := Dict(d.items[1..]);
      assert d.items == [d.items[0]] + tail.items;
      KeysCons(d.items[0], tail.items);
      if d.items[0].0 == k then
        KeysCons((k, v), tail.items);
        Dict([(k, v)] + tail.items)
      else
        var rest := Put(tail, k, v);
        KeysCons(d.items[0], rest.items);
        assert Keys(d) + [k] == [d.items[0].0] + (Keys(tail) + [k]);
        Dict([d.items[0]] + rest.items)
  }

  lemma KeysCons<V>(x: (string, V), items: seq<(string, V)>)
    ensures Keys(Dict([x] + items)) == [x.0] + Keys(Dict(items))
  {
  }

  /** After `d[k] = v`, looking up `k` gives `v` and every other key is
      unaffected. */
  lemma {:induction false} PutGet<V>(d: Dict<V>, k: string, v: V, k': string)
    ensures Get(Put(d, k, v), k') == if k' == k then Some(v) else Get(d, k')
    decreases |d.items|
  {
    if |d.items| > 0 && d.items[0].0 != k {
      var tail := Dict(d.items[1..]);
      PutGet(tail, k, v, k');
      var r := Put(d, k, v);
      assert r.items[0] == d.items[0];
      assert Dict(r.items[1..]) == Put(tail, k, v);
    }
  }

  /** Assignment never makes a key appear twice. */
  lemma PutValid<V>(d: Dict<V>, k: string, v: V)
    requires Valid(d)
    ensures Valid(Put(d, k, v))
  {
    var ks := Keys(d);
    if k !in ks {
      var ks' := ks + [k];
      forall i, j | 0 <= i < j < |ks'| ensures ks'[i] != ks'[j] {
        if j == |ks| {
          assert ks'[i] == ks[i];
        }
      }
    }
  }

  /** The dict read as a mathematical map. */
  function ToMap<V>(d: Dict<V>): (m: map<string, V>)
    ensures forall k :: k in m <==> k in Keys(d)
    ensures forall k :: k in m ==> Get(d, k) == Some(m[k])
  {
    map k | k in Keys(d) :: Get(d, k).value
  }

  /** Putting into the dict is a map update of its abstraction. */
  lemma PutIsUpdate<V>(d: Dict<V>, k: string, v: V)
    ensures ToMap(Put(d, k, v)) == ToMap(d)[k := v]
  {
    var lhs := ToMap(Put(d, k, v));
    var rhs := ToMap(d)[k := v];
    assert lhs.Keys == rhs.Keys by {
      assert forall k' :: k' in Keys(Put(d, k, v)) <==> k' in Keys(d) || k' == k;
    }
    forall k' | k' in lhs ensures lhs[k'] == rhs[k'] {
      PutGet(d, k, v, k');
    }
  }
}

=== FILE: pystr.dfy ===
/** The Python `str` and sequence primitives the parser is built from:
    `str.split(sep)` with an explicit separator, `str.strip()` with no
    argument, slicing `xs[start:stop]`, and `int(text)` in base 10.
    Each is given as a function together with the property that pins it
    down, so that the parser's contracts can be stated in terms of them.
 */
module PyStr {
  import opened Outcomes

  // ---------------------------------------------------------------------
  // Whitespace, as `str.isspace()` sees it
  // ---------------------------------------------------------------------

  /** `c` is whitespace to `str.strip()` with no argument: `\t` to `\r`,
      `\x1c` to the space, NEL, NBSP, the Ogham space mark, U+2000 to
      U+200A, the line and paragraph separators, the narrow and medium
      mathematical spaces, and the ideographic space. */
  predicate IsSpace(c: char) {
    ('\t' <= c <= '\r') || ('\U{1C}' <= c <= ' ') || c == '\U{85}' || c == '\U{A0}'
    || c == '\U{1680}' || ('\U{2000}' <= c <= '\U{200A}') || ('\U{2028}' <= c <= '\U{2029}')
    || c == '\U{202F}' || c == '\U{205F}' || c == '\U{3000}'
  }

  predicate AllSpace(s: string) {
    forall i :: 0 <= i < |s| ==> IsSpace(s[i])
  }

  /** Neither end of `s` is whitespace. */
  predicate Trimmed(s: string) {
    |s| == 0 || (!IsSpace(s[0]) && !IsSpace(s[|s| - 1]))
  }

  // ---------------------------------------------------------------------
  // str.strip()
  // ---------------------------------------------------------------------

  /** Where the whitespace run of `s` that starts at `k` ends. */
  function SpaceRunEnd(s: string, k: nat): (i: nat)
    requires k <= |s|
    ensures k <= i <= |s|
    ensures forall m :: k <= m < i ==> IsSpace(s[m])
    ensures i < |s| ==> !IsSpace(s[i])
    decreases |s| - k
  {
    if k < |s| && IsSpace(s[k]) then SpaceRunEnd(s, k + 1) else k
  }

  /** Where the whitespace run of `s` that ends at `k` starts. */
  function SpaceRunStart(s: string, k: nat): (j: nat)
    requires k <= |s|
    ensures j <= k
    ensures forall m :: j <= m < k ==> IsSpace(s[m])
    ensures j > 0 ==> !IsSpace(s[j - 1])
  {
    if k > 0 && IsSpace(s[k - 1]) then SpaceRunStart(s, k - 1) else k
  }

  /** Where the strip of `s` starts: after its leading whitespace run. */
  function StripStart(s: string): (i: nat)
    ensures i <= |s| && AllSpace(s[..i])
    ensures i < |s| ==> !IsSpace(s[i])
  {
    var i := SpaceRunEnd(s, 0);
    assert forall m :: 0 <= m < i ==> s[..i][m] == s[m];
    i
  }

  /** Where the strip of `s` ends: before its trailing whitespace run. */
  function StripEnd(s: string): (j: nat)
    ensures j <= |s| && AllSpace(s[j..])
    ensures j > 0 ==> !IsSpace(s[j - 1])
  {
    var j := SpaceRunStart(s, |s|);
    assert forall m :: 0 <= m < |s| - j ==> s[j..][m] == s[j + m];
    j
  }

  /** `s.strip()`: what is left once the whitespace runs at both ends are
      removed. */
  function Strip(s: string): (r: string)
    ensures Trimmed(r)
  {
    var i, j := StripStart(s), StripEnd(s);
    if i == |s| then
      ""
    else
      StartBeforeEnd(s);
      s[i..j]
  }

  /** Unless `s` is all whitespace, its leading run ends before its
      trailing run starts. */
  lemma StartBeforeEnd(s: string)
    requires StripStart(s) < |s|
    ensures StripStart(s) < StripEnd(s)
  {
    SpaceRun(s, StripEnd(s));
  }

  /** Every character of an all-whitespace suffix is whitespace. */
  lemma SpaceRun(s: string, j: nat)
    requires j <= |s| && AllSpace(s[j..])
    ensures forall k :: j <= k < |s| ==> IsSpace(s[k])
  {
    forall k | j <= k < |s|
      ensures IsSpace(s[k])
    {
      assert s[j..][k - j] == s[k];
    }
  }

  /** The strip of `s` is the infix of `s` at `StripStart(s)`, with only
      whitespace before and after it. */
  lemma StripIsInfix(s: string)
    ensures StripStart(s) + |Strip(s)| <= |s|
    ensures Strip(s) == s[StripStart(s)..StripStart(s) + |Strip(s)|]
    ensures AllSpace(s[..StripStart(s)]) && AllSpace(s[StripStart(s) + |Strip(s)|..])
  {
    StripSlice(s);
    StripSurround(s);
  }

  lemma StripSlice(s: string)
    ensures StripStart(s) + |Strip(s)| <= |s|
    ensures Strip(s) == s[StripStart(s)..StripStart(s) + |Strip(s)|]
  {
    StripBetween(s);
    if StripStart(s) < |s| {
      SliceAt(s, Strip(s), StripStart(s), StripEnd(s));
    } else {
      SliceAt(s, Strip(s), |s|, |s|);
    }
  }

  lemma StripSurround(s: string)
    ensures StripStart(s) + |Strip(s)| <= |s|
    ensures AllSpace(s[StripStart(s) + |Strip(s)|..])
  {
    StripBetween(s);
  }

  /** An infix `s[i..j]` is `s[i..i + |r|]`. */
  lemma SliceAt(s: string, r: string, i: nat, j: nat)
    requires i <= j <= |s| && r == s[i..j]
    ensures i + |r| <= |s| && r == s[i..i + |r|]
  {
  }

  lemma StripBetween(s: string)
    ensures StripStart(s) < |s| ==> StripStart(s) < StripEnd(s) && Strip(s) == s[StripStart(s)..StripEnd(s)]
    ensures StripStart(s) == |s| ==> Strip(s) == ""
  {
    if StripStart(s) < |s| {
      StartBeforeEnd(s);
    }
  }

  lemma AllSpaceConcat(a: string, b: string)
    requires AllSpace(a) && AllSpace(b)
    ensures AllSpace(a + b)
  {
    assert forall k :: 0 <= k < |a + b| ==> (a + b)[k] == if k < |a| then a[k] else b[k - |a|];
  }

  /** A text strips to nothing exactly when it is all whitespace. */
  lemma StripEmptyIff(s: string)
    ensures Strip(s) == "" <==> AllSpace(s)
  {
    if Strip(s) == "" {
      StripIsInfix(s);
      var i := StripStart(s);
      assert s == s[..i] + s[i..];
      AllSpaceConcat(s[..i], s[i..]);
    } else if AllSpace(s) {
      StripUnique(s, s, "", "");
    }
  }

  /** Stripping adds no character. */
  lemma NotInStrip(s: string, c: char)
    requires c !in s
    ensures c !in Strip(s)
  {
    StripIsInfix(s);
    NotInInfix(s, Strip(s), StripStart(s), c);
  }

  /** An occurrence inside an infix is one in the whole text. */
  lemma OccursInInfix(s: string, r: string, i: nat, sep: string, j: int)
    requires i + |r| <= |s| && r == s[i..i + |r|]
    ensures OccursAt(r, sep, j) ==> OccursAt(s, sep, i + j)
  {
    if OccursAt(r, sep, j) {
      SliceOfSlice(s, i, i + |r|, j, j + |sep|);
    }
  }

  lemma SliceOfSlice<T>(s: seq<T>, a: nat, b: nat, c: nat, d: nat)
    requires a <= b <= |s| && c <= d <= b - a
    ensures s[a..b][c..d] == s[a + c..a + d]
  {
    forall k | 0 <= k < d - c ensures s[a..b][c..d][k] == s[a + c..a + d][k] {
      assert s[a..b][c + k] == s[a + c + k];
    }
  }

  /** Stripping cannot create an occurrence of a separator. */
  lemma NoSeparatorInStrip(s: string, sep: string)
    requires !Contains(s, sep)
    ensures !Contains(Strip(s), sep)
  {
    StripIsInfix(s);
    forall j | 0 <= j <= |Strip(s)| ensures !OccursAt(Strip(s), sep, j) {
      OccursInInfix(s, Strip(s), StripStart(s), sep, j);
    }
  }

  lemma NotInInfix(s: string, r: string, i: nat, c: char)
    requires i + |r| <= |s| && r == s[i..i + |r|] && c !in s
    ensures c !in r
  {
    assert forall k :: 0 <= k < |r| ==> r[k] == s[i + k];
  }

  /** A whitespace run followed by a text that does not start with
      whitespace: the leading run ends where that run does. */
  lemma {:induction false} RunEndUnique(a: string, t: string, k: nat)
    requires AllSpace(a) && k <= |a|
    requires |t| == 0 || !IsSpace(t[0])
    ensures SpaceRunEnd(a + t, k) == |a|
    decreases |a| - k
  {
    if k < |a| {
      assert (a + t)[k] == a[k];
      RunEndUnique(a, t, k + 1);
    } else if |t| > 0 {
      assert (a + t)[k] == t[0];
    }
  }

  /** A text that does not end with whitespace followed by a whitespace
      run: the trailing run starts where that run does. */
  lemma {:induction false} RunStartUnique(t: string, b: string, k: nat)
    requires AllSpace(b) && |t| <= k <= |t| + |b|
    requires |t| == 0 || !IsSpace(t[|t| - 1])
    ensures SpaceRunStart(t + b, k) == |t|
    decreases k
  {
    if k > |t| {
      assert (t + b)[k - 1] == b[k - 1 - |t|];
      RunStartUnique(t, b, k - 1);
    } else if k > 0 {
      assert (t + b)[k - 1] == t[|t| - 1];
    }
  }

  /** Strip is determined by its contract: any split of `s` into a
      whitespace run, a trimmed middle and a whitespace run yields that
      middle. */
  lemma StripUnique(s: string, a: string, m: string, b: string)
    requires s == a + m + b
    requires AllSpace(a) && AllSpace(b) && Trimmed(m)
    ensures Strip(s) == m
  {
    if |m| > 0 {
      assert s == a + (m + b);
      RunEndUnique(a, m + b, 0);
      assert s == (a + m) + b;
      RunStartUnique(a + m, b, |s|);
      assert s[|a|..|a| + |m|] == m;
    } else {
      assert s == (a + b) + [];
      AllSpaceConcat(a, b);
      RunEndUnique(a + b, [], 0);
    }
  }

  /** A space in front changes nothing once stripped. */
  lemma StripOneSpace(h: string)
    ensures Strip(" " + h) == Strip(h)
  {
    StripIsInfix(h);
    var i, r := StripStart(h), Strip(h);
    SpaceBeforeInfix(h, i, r);
    AllSpaceConcat(" ", h[..i]);
    StripUnique(" " + h, " " + h[..i], r, h[i + |r|..]);
  }

  lemma SpaceBeforeInfix(h: string, i: nat, r: string)
    requires i + |r| <= |h| && r == h[i..i + |r|]
    ensures " " + h == (" " + h[..i]) + r + h[i + |r|..]
  {
    assert h == h[..i] + r + h[i + |r|..];
  }

  /** Stripping twice is stripping once. */
  lemma StripIdempotent(s: string)
    ensures Strip(Strip(s)) == Strip(s)
  {
    var m := Strip(s);
    assert m == [] + m + [];
    StripUnique(m, [], m, []);
  }

  /** A trimmed string is its own strip. */
  lemma StripTrimmed(s: string)
    requires Trimmed(s)
    ensures Strip(s) == s
  {
    assert s == [] + s + [];
    StripUnique(s, [], s, []);
  }

  // ---------------------------------------------------------------------
  // Occurrences of a separator and str.split(sep)
  // ---------------------------------------------------------------------

  /** `sep` occurs in `s` starting at index `j`. */
  predicate OccursAt(s: string, sep: string, j: int) {
    0 <= j && j + |sep| <= |s| && s[j..j + |sep|] == sep
  }

  predicate Contains(s: string, sep: string) {
    exists j :: 0 <= j <= |s| && OccursAt(s, sep, j)
  }

  lemma OccursShift(s: string, sep: string, j: int)
    requires |s| >= 1 && j >= 0
    ensures OccursAt(s[1..], sep, j) <==> OccursAt(s, sep, j + 1)
  {
    if j + |sep| <= |s| - 1 {
      assert s[1..][j..j + |sep|] == s[j + 1..j + 1 + |sep|];
    }
  }

  lemma OccursInPrefix(s: string, sep: string, k: int, j: int)
    requires 0 <= k <= |s|
    ensures OccursAt(s[..k], sep, j) ==> OccursAt(s, sep, j)
  {
    if OccursAt(s[..k], sep, j) {
      assert s[..k][j..j + |sep|] == s[j..j + |sep|];
    }
  }

  /** `s.find(sep)`: the leftmost index at which `sep` occurs, if any. */
  function Find(s: string, sep: string): (r: Option<nat>)
    requires |sep| > 0
    ensures r.Some? ==> OccursAt(s, sep, r.value)
    ensures r.Some? ==> forall j :: 0 <= j < r.value ==> !OccursAt(s, sep, j)
    ensures r.None? ==> !Contains(s, sep)
    decreases |s|
  {
    if |s| < |sep| then None
    else if s[..|sep|] == sep then Some(0)
    else
      match Find(s[1..], sep)
      case None =>
        assert !OccursAt(s, sep, 0) by {
          assert s[0..|sep|] == s[..|sep|];
        }
        forall j | 1 <= j <= |s| ensures !OccursAt(s, sep, j) {
          OccursShift(s, sep, j - 1);
        }
        None
      case Some(k) =>
        OccursShift(s, sep, k);
        assert forall j :: 0 <= j <= k ==> !OccursAt(s, sep, j) by {
          forall j | 0 <= j <= k ensures !OccursAt(s, sep, j) {
            if j >= 1 { OccursShift(s, sep, j - 1); }
          }
        }
        Some(k + 1)
  }

  /** The leftmost occurrence is the only one that can be leftmost: a witness
      occurrence with no earlier one is what Find returns. */
  lemma FindIs(s: string, sep: string, k: nat)
    requires |sep| > 0
    requires OccursAt(s, sep, k)
    requires forall j :: 0 <= j < k ==> !OccursAt(s, sep, j)
    ensures Find(s, sep) == Some(k)
  {
  }

  /** `s.split(sep)`: the pieces between the non-overlapping occurrences of
      `sep`, found left to right; empty pieces are kept. */
  function Split(s: string, sep: string): (parts: seq<string>)
    requires |sep| > 0
    ensures |parts| >= 1
    ensures forall i :: 0 <= i < |parts| ==> !Contains(parts[i], sep)
    decreases |s|
  {
    match Find(s, sep)
    case None => [s]
    case Some(k) =>
      assert !Contains(s[..k], sep) by {
        forall j | 0 <= j <= k ensures !OccursAt(s[..k], sep, j) {
          OccursInPrefix(s, sep, k, j);
        }
      }
      [s[..k]] + Split(s[k + |sep|..], sep)
  }

  /** `sep.join(parts)`. */
  function Join(parts: seq<string>, sep: string): string
    requires |parts| >= 1
  {
    if |parts| == 1 then parts[0] else parts[0] + sep + Join(parts[1..], sep)
  }

  /** A character found neither in the pieces nor in the separator is not
      in their join. */
  lemma {:induction false} NotInJoin(parts: seq<string>, sep: string, c: char)
    requires |parts| >= 1
    requires c !in sep
    requires forall i :: 0 <= i < |parts| ==> c !in parts[i]
    ensures c !in Join(parts, sep)
    decreases |parts|
  {
    if |parts| > 1 {
      assert forall i :: 0 <= i < |parts| - 1 ==> parts[1..][i] == parts[i + 1];
      NotInJoin(parts[1..], sep, c);
    }
  }

  /** Joining the pieces back with the separator restores the text. */
  lemma {:induction false} JoinSplit(s: string, sep: string)
    requires |sep| > 0
    ensures Join(Split(s, sep), sep) == s
    decreases |s|
  {
    match Find(s, sep)
    case None =>
    case Some(k) =>
      var rest := s[k + |sep|..];
      var tail := Split(rest, sep);
      JoinSplit(rest, sep);
      var parts := [s[..k]] + tail;
      assert Split(s, sep) == parts;
      assert parts[1..] == tail;
      assert Join(parts, sep) == s[..k] + sep + Join(tail, sep);
      assert s[k..k + |sep|] == sep;
      assert s == s[..k] + s[k..k + |sep|] + rest;
  }

  /** `p + sep` is a piece that ends exactly at its separator: no earlier
      occurrence of `sep` starts inside `p` or straddles its end. */
  predicate EndsAtSeparator(p: string, sep: string)
    requires |sep| > 0
  {
    Find(p + sep, sep) == Some(|p|)
  }

  lemma OccursInExtension(t: string, sep: string, rest: string, j: int)
    requires 0 <= j && j + |sep| <= |t|
    ensures OccursAt(t + rest, sep, j) <==> OccursAt(t, sep, j)
  {
    assert (t + rest)[j..j + |sep|] == t[j..j + |sep|];
  }

  lemma FindExtends(t: string, sep: string, rest: string)
    requires |sep| > 0
    requires Find(t, sep).Some?
    ensures Find(t + rest, sep) == Find(t, sep)
  {
    var k := Find(t, sep).value;
    assert OccursAt(t, sep, k);
    OccursInExtension(t, sep, rest, k);
    forall j | 0 <= j < k ensures !OccursAt(t + rest, sep, j) {
      OccursInExtension(t, sep, rest, j);
    }
    FindIs(t + rest, sep, k);
  }

  /** Splitting a join gives the pieces back, provided every piece but the
      last ends at the separator that follows it and the last holds no
      separator. */
  lemma {:induction false} SplitJoin(parts: seq<string>, sep: string)
    requires |sep| > 0 && |parts| >= 1
    requires forall i :: 0 <= i < |parts| - 1 ==> EndsAtSeparator(parts[i], sep)
    requires !Contains(parts[|parts| - 1], sep)
    ensures Split(Join(parts, sep), sep) == parts
    decreases |parts|
  {
    if |parts| > 1 {
      var tail := parts[1..];
      assert EndsAtSeparator(parts[0], sep);
      assert Join(parts, sep) == parts[0] + sep + Join(tail, sep);
      SplitAfter(parts[0], sep, Join(tail, sep));
      assert forall i :: 0 <= i < |tail| ==> tail[i] == parts[i + 1];
      SplitJoin(tail, sep);
      assert parts == [parts[0]] + tail;
    }
  }

  /** A piece that ends at its separator splits off whatever follows. */
  lemma SplitAfter(p: string, sep: string, t: string)
    requires |sep| > 0 && EndsAtSeparator(p, sep)
    ensures Split(p + sep + t, sep) == [p] + Split(t, sep)
  {
    var s := p + sep + t;
    FindExtends(p + sep, sep, t);
    assert Find(s, sep) == Some(|p|);
    assert s[|p| + |sep|..] == t;
    assert s[..|p|] == p;
  }

  /** For a one-character separator the side condition is just "the piece
      does not contain it". */
  lemma EndsAtCharSeparator(p: string, c: char)
    requires c !in p
    ensures EndsAtSeparator(p, [c])
    ensures !Contains(p, [c])
  {
    var t := p + [c];
    assert OccursAt(t, [c], |p|);
    forall j | 0 <= j < |p| ensures !OccursAt(t, [c], j) {
      assert t[j] == p[j];
    }
    FindIs(t, [c], |p|);
    forall j | 0 <= j <= |p| ensures !OccursAt(p, [c], j) {
      if j < |p| {
        assert p[j..j + 1] == [p[j]];
      }
    }
  }

  /** A one-character separator occurs exactly where the character does. */
  lemma CharContains(h: string, c: char)
    ensures c in h <==> Contains(h, [c])
  {
    if c in h {
      var j :| 0 <= j < |h| && h[j] == c;
      assert OccursAt(h, [c], j);
    }
    if Contains(h, [c]) {
      var j :| 0 <= j <= |h| && OccursAt(h, [c], j);
      assert h[j..j + 1][0] == h[j];
    }
  }

  /** Splitting on a character restores any list of pieces free of it. */
  lemma SplitJoinChar(parts: seq<string>, c: char)
    requires |parts| >= 1
    requires forall i :: 0 <= i < |parts| ==> c !in parts[i]
    ensures Split(Join(parts, [c]), [c]) == parts
  {
    forall i | 0 <= i < |parts| ensures EndsAtSeparator(parts[i], [c]) && !Contains(parts[i], [c]) {
      EndsAtCharSeparator(parts[i], c);
    }
    SplitJoin(parts, [c]);
  }

  /** `s.split(c)[0]`: the text before the first `c`, or all of `s`. */
  lemma HeadBefore(s: string, c: char)
    ensures c !in Split(s, [c])[0]
    ensures Split(s, [c])[0] == s || (|Split(s, [c])[0]| < |s| && s[|Split(s, [c])[0]|] == c)
    ensures s[..|Split(s, [c])[0]|] == Split(s, [c])[0]
  {
    CharContains(Split(s, [c])[0], c);
    match Find(s, [c])
    case None =>
    case Some(k) =>
  }

  /** The text before the first `c` of `a + [c] + b`, when `a` has none, is `a`. */
  lemma HeadBeforeJoin(a: string, c: char, b: string)
    requires c !in a
    ensures Split(a + [c] + b, [c])[0] == a
  {
    EndsAtCharSeparator(a, c);
    FindExtends(a + [c], [c], b);
  }

  // ---------------------------------------------------------------------
  // Slicing xs[start:stop]
  // ---------------------------------------------------------------------

  /** How Python normalises a slice bound against a length `n`: negative
      bounds count from the end, and both are clamped into `0..n`. */
  function ClampIndex(i: int, n: nat): (k: nat)
    ensures k <= n
    ensures 0 <= i <= n ==> k == i
    ensures i < 0 && n + i >= 0 ==> k == n + i
    ensures n + i < 0 ==> k == 0
    ensures i > n ==> k == n
  {
    if i < 0 then (if n + i < 0 then 0 else n + i)
    else if i > n then n
    else i
  }

  /** `xs[start:stop]`, step 1; never an error, possibly empty. */
  function Slice<T>(xs: seq<T>, start: int, stop: int): (r: seq<T>)
    ensures |r| <= |xs|
    ensures var a, b := ClampIndex(start, |xs|), ClampIndex(stop, |xs|);
      && |r| == (if a < b then b - a else 0)
      && forall k :: 0 <= k < |r| ==> r[k] == xs[a + k]
  {
    var a := ClampIndex(start, |xs|);
    var b := ClampIndex(stop, |xs|);
    if a < b then xs[a..b] else []
  }

  /** `xs[6:-2]` holds everything but the first six and last two
      elements, and nothing at all when there are fewer than eight. */
  lemma SliceDropsHeaderAndFooter<T>(xs: seq<T>)
    ensures |Slice(xs, 6, -2)| == if |xs| >= 8 then |xs| - 8 else 0
    ensures forall k :: 0 <= k < |Slice(xs, 6, -2)| ==> Slice(xs, 6, -2)[k] == xs[6 + k]
  {
  }

  /** Six header lines, N rows and two footer lines slice down to the N rows. */
  lemma SliceFramed<T>(header: seq<T>, rows: seq<T>, footer: seq<T>)
    requires |header| == 6 && |footer| == 2
    ensures Slice(header + rows + footer, 6, -2) == rows
  {
    var xs := header + rows + footer;
    SliceDropsHeaderAndFooter(xs);
    assert xs[6..6 + |rows|] == rows;
  }

  // ---------------------------------------------------------------------
  // int(text), base 10
  // ---------------------------------------------------------------------

  predicate IsDigit(c: char) {
    '0' <= c <= '9'
  }

  /** Digits, with single underscores allowed only between two digits. */
  predicate WellGrouped(ds: string) {
    && |ds| > 0
    && IsDigit(ds[0])
    && IsDigit(ds[|ds| - 1])
    && forall i :: 0 <= i < |ds| ==> GroupChar(ds, i)
  }

  /** Position `i` holds a digit, or an underscore followed by a digit. */
  predicate GroupChar(ds: string, i: nat)
    requires i < |ds|
  {
    IsDigit(ds[i]) || (ds[i] == '_' && i + 1 < |ds| && IsDigit(ds[i + 1]))
  }

  /** The number the digits of `ds` spell, underscores skipped. */
  function DigitsValue(ds: string): nat {
    if |ds| == 0 then 0
    else
      var last := ds[|ds| - 1];
      if IsDigit(last) then 10 * DigitsValue(ds[..|ds| - 1]) + (last as int - '0' as int)
      else DigitsValue(ds[..|ds| - 1])
  }

  /** `int(text)`: surrounding whitespace ignored, an optional sign, then
      grouped decimal digits; anything else is a ValueError. */
  function ParseInt(text: string): (r: Result<int>)
    ensures r.Failure? ==> r.error == ValueError(text)
    ensures r.Success? ==> |Strip(text)| > 0
  {
    var t := Strip(text);
    if |t| > 0 && (t[0] == '-' || t[0] == '+') then
      if WellGrouped(t[1..]) then
        Success(if t[0] == '-' then -(DigitsValue(t[1..]) as int) else DigitsValue(t[1..]))
      else Failure(ValueError(text))
    else if WellGrouped(t) then Success(DigitsValue(t))
    else Failure(ValueError(text))
  }

  function DigitChar(d: nat): (c: char)
    requires d < 10
    ensures IsDigit(c)
  {
    ('0' as int + d) as char
  }

  /** `str(n)` for a natural number. */
  function ShowNat(n: nat): (r: string)
    ensures |r| > 0
    ensures forall i :: 0 <= i < |r| ==> IsDigit(r[i])
  {
    if n < 10 then [DigitChar(n)] else ShowNat(n / 10) + [DigitChar(n % 10)]
  }

  /** `str(n)` for an integer. */
  function Show(n: int): string {
    if n < 0 then "-" + ShowNat(-n) else ShowNat(n)
  }

  lemma {:induction false} DigitsValueShowNat(n: nat)
    ensures DigitsValue(ShowNat(n)) == n
  {
    if n >= 10 {
      DigitsValueShowNat(n / 10);
      var s := ShowNat(n);
      assert s[..|s| - 1] == ShowNat(n / 10);
    }
  }

  lemma DigitNotSpace(c: char)
    requires IsDigit(c) || c == '-'
    ensures !IsSpace(c)
  {
  }

  lemma ShowNatWellGrouped(n: nat)
    ensures WellGrouped(ShowNat(n))
    ensures !IsSpace(ShowNat(n)[0]) && !IsSpace(ShowNat(n)[|ShowNat(n)| - 1])
  {
    var ds := ShowNat(n);
    DigitNotSpace(ds[0]);
    DigitNotSpace(ds[|ds| - 1]);
  }

  /** `int()` refuses any text that, once stripped, holds a character other
      than a digit or `_`, except for a sign in first position: a rule line
      of dashes, a column title or an empty cell is a ValueError. */
  lemma ParseIntRejects(text: string, k: nat)
    requires k < |Strip(text)|
    requires !IsDigit(Strip(text)[k]) && Strip(text)[k] != '_'
    requires k == 0 ==> Strip(text)[k] != '-' && Strip(text)[k] != '+'
    ensures ParseInt(text) == Failure(ValueError(text))
  {
    var t := Strip(text);
    ParseIntOf(text, t, k);
  }

  lemma ParseIntOf(text: string, t: string, k: nat)
    requires t == Strip(text)
    requires k < |t| && !IsDigit(t[k]) && t[k] != '_'
    requires k == 0 ==> t[k] != '-' && t[k] != '+'
    ensures ParseInt(text) == Failure(ValueError(text))
  {
    if t[0] == '-' || t[0] == '+' {
      var ds := t[1..];
      assert ds[k - 1] == t[k];
      GroupedChars(ds);
      NotGroupedRejected(text, t, true);
    } else {
      GroupedChars(t);
      NotGroupedRejected(text, t, false);
    }
  }

  /** The two ways `int()` turns down a text: its digits after a sign, or
      the whole text without one, are not well grouped. */
  lemma NotGroupedRejected(text: string, t: string, signed: bool)
    requires t == Strip(text) && |t| > 0
    requires signed <==> t[0] == '-' || t[0] == '+'
    requires if signed then !WellGrouped(t[1..]) else !WellGrouped(t)
    ensures ParseInt(text) == Failure(ValueError(text))
  {
  }

  /** Every character of well-grouped digits is a digit or `_`. */
  lemma GroupedChars(ds: string)
    ensures WellGrouped(ds) ==> forall k :: 0 <= k < |ds| ==> IsDigit(ds[k]) || ds[k] == '_'
  {
    if WellGrouped(ds) {
      forall k | 0 <= k < |ds| ensures IsDigit(ds[k]) || ds[k] == '_' {
        assert GroupChar(ds, k);
      }
    }
  }

  /** `int()` of a blank text is a ValueError. */
  lemma ParseIntBlank(text: string)
    requires AllSpace(text)
    ensures ParseInt(text) == Failure(ValueError(text))
  {
    StripEmptyIff(text);
  }

  /** `int(str(n)) == n`. */
  lemma ParseShow(n: int)
    ensures ParseInt(Show(n)) == Success(n)
  {
    var m: nat := if n < 0 then -n else n;
    var ds := ShowNat(m);
    DigitsValueShowNat(m);
    ShowNatWellGrouped(m);
    var s := Show(n);
    if n < 0 {
      assert s == "-" + ds;
      assert s[0] == '-';
      assert s[|s| - 1] == ds[|ds| - 1];
      DigitNotSpace('-');
      StripTrimmed(s);
      assert s[1..] == ds;
    } else {
      assert s == ds;
      StripTrimmed(s);
      assert !IsDigit(s[0]) ==> false;
    }
  }
}

=== FILE: scenarios.dfy ===
/** Worked examples of the parser and the report: one wireless LAN controller
    carrying the WLANs 106 and 107, whose profiles are named after their
    SSIDs, printed as "name / name".
 */
module Scenarios {
  import opened Outcomes
  import opened PyStr
  import opened PyDict
  import opened WlanParser
  import opened Audit

  /** The column titles and their underlines are laid out like a row. */
  const Titles: seq<string> :=
    ["WLAN ID", "WLAN Profile Name / SSID", "Status", "Interface Name", "PMIPv6 Mobility"]
  const Rules: seq<string> :=
    ["-------", "------------------------", "------", "--------------", "---------------"]

  const Header: seq<string> := [
    "", "Number of WLANs" + "................................" + " 2", "",
    Join(Titles, ColumnSeparator), Join(Rules, ColumnSeparator), ""]

  const Footer: seq<string> := ["", "(Cisco Controller) >"]

  /** A name the controller prints as one word: no whitespace, no `/`. */
  predicate Word(n: string) {
    |n| > 0 && forall i :: 0 <= i < |n| ==> !IsSpace(n[i]) && n[i] != '/'
  }

  /** WLANs 106 and 107 with SSIDs `a` and `b`. */
  function Wlans(a: string, b: string): seq<Line> {
    [Line(106, a + " ", " " + a, "Enabled", "management", "none"),
     Line(107, b + " ", " " + b, "Enabled", "management", "none")]
  }

  /** The `show wlan summary` output of the controller. */
  function Output(a: string, b: string): string {
    Summary(Header, Wlans(a, b), Footer)
  }

  /** The columns the output should parse into. */
  function Expected(a: string, b: string): WlanData {
    WlanData([106, 107], [a, b], ["Enabled", "Enabled"],
             ["management", "management"], ["none", "none"])
  }

  lemma TitlesOneLine()
    ensures forall i :: 0 <= i < |Titles| ==> '\n' !in Titles[i]
    ensures forall i :: 0 <= i < |Rules| ==> '\n' !in Rules[i]
  {
  }

  lemma FrameIsOneLinePerEntry()
    ensures forall i :: 0 <= i < |Header| ==> '\n' !in Header[i]
    ensures forall i :: 0 <= i < |Footer| ==> '\n' !in Footer[i]
  {
    TitlesOneLine();
    NotInJoin(Titles, ColumnSeparator, '\n');
    NotInJoin(Rules, ColumnSeparator, '\n');
    assert '\n' !in Header[1];
  }

  /** The cell "name / name" spelled out. */
  lemma WordCellChars(n: string)
    requires Word(n)
    ensures var s := (n + " ") + "/" + (" " + n);
      && |s| == 2 * |n| + 3
      && (forall i :: 0 <= i < |n| ==> s[i] == n[i] && s[|n| + 3 + i] == n[i])
      && s[|n|] == ' ' && s[|n| + 1] == '/' && s[|n| + 2] == ' '
  {
  }

  /** No two-space run in "name / name". */
  lemma WordCellNoSeparator(n: string)
    requires Word(n)
    ensures !Contains((n + " ") + "/" + (" " + n), ColumnSeparator)
  {
    var s := (n + " ") + "/" + (" " + n);
    var k := |n|;
    WordCellChars(n);
    forall j | 0 <= j <= |s| ensures !OccursAt(s, ColumnSeparator, j) {
      if j + 2 <= |s| {
        assert s[j..j + 2][0] == s[j] && s[j..j + 2][1] == s[j + 1];
        if j < k {
          assert s[j] == n[j];
        } else if j == k {
          assert s[j + 1] == '/';
        } else if j == k + 1 {
          assert s[j] == '/';
        } else {
          assert s[j + 1] == n[j + 1 - k - 3];
        }
      }
    }
  }

  lemma WordStrip(n: string)
    requires Word(n)
    ensures Strip(n + " ") == n
  {
    assert n + " " == [] + n + " ";
    assert Trimmed(n);
    StripUnique(n + " ", [], n, " ");
  }

  lemma WordCellOneLine(n: string)
    requires Word(n)
    ensures '\n' !in (n + " ") + "/" + (" " + n)
  {
    var s := (n + " ") + "/" + (" " + n);
    WordCellChars(n);
    forall i | 0 <= i < |s| ensures s[i] != '\n' {
      if |n| + 3 <= i {
        assert s[i] == n[i - |n| - 3];
      }
    }
  }

  /** "name / name" is a single cell on a single line, and its profile half
      strips to the name. */
  lemma WordCell(n: string)
    requires Word(n)
    ensures Cell((n + " ") + "/" + (" " + n)) && '\n' !in (n + " ") + "/" + (" " + n)
    ensures Strip(n + " ") == n
  {
    var s := (n + " ") + "/" + (" " + n);
    WordCellChars(n);
    WordCellNoSeparator(n);
    assert s[0] == n[0] && s[|s| - 1] == n[|n| - 1];
    WordCellOneLine(n);
    WordStrip(n);
  }

  lemma PlainCells()
    ensures Cell("Enabled") && Cell("management") && Cell("none")
    ensures '\n' !in "Enabled" && '\n' !in "management" && '\n' !in "none"
  {
    NoSpaceNoSeparator("Enabled");
    NoSpaceNoSeparator("management");
    NoSpaceNoSeparator("none");
  }

  /** Aligned columns are determined by their rows. */
  lemma SameRows(d: WlanData, e: WlanData, n: nat)
    requires Aligned(d, n) && Aligned(e, n)
    requires forall k :: 0 <= k < n ==> RowAt(d, k) == RowAt(e, k)
    ensures d == e
  {
    assert forall k :: 0 <= k < n ==> d.ids[k] == RowAt(d, k).id == e.ids[k];
    assert forall k :: 0 <= k < n ==> d.ssids[k] == RowAt(d, k).ssid == e.ssids[k];
    assert forall k :: 0 <= k < n ==> d.status[k] == RowAt(d, k).status == e.status[k];
    assert forall k :: 0 <= k < n ==> d.interfaces[k] == RowAt(d, k).interface == e.interfaces[k];
    assert forall k :: 0 <= k < n ==> d.mobility[k] == RowAt(d, k).mobility == e.mobility[k];
  }

  lemma LinePrintable(n: string, id: int)
    requires Word(n)
    ensures Printable(Line(id, n + " ", " " + n, "Enabled", "management", "none"))
  {
    WordCell(n);
    PlainCells();
    assert forall i :: 0 <= i < |n| ==> (n + " ")[i] == n[i];
  }

  /** Two printable WLANs between a header and a footer parse into two
      rows. */
  lemma TwoRows(header: seq<string>, lines: seq<Line>, footer: seq<string>)
    requires |header| == 6 && |footer| == 2 && |lines| == 2
    requires forall i :: 0 <= i < |header| ==> '\n' !in header[i]
    requires forall i :: 0 <= i < |footer| ==> '\n' !in footer[i]
    requires Printable(lines[0]) && Printable(lines[1])
    ensures ParseDevice(map[ShowWlanSummary := Summary(header, lines, footer)]).Success?
    ensures var d := ParseDevice(map[ShowWlanSummary := Summary(header, lines, footer)]).value;
      && Aligned(d, 2)
      && RowAt(d, 0) == WlanRow(lines[0].id, Strip(lines[0].profile), lines[0].status,
                                lines[0].interface, lines[0].mobility)
      && RowAt(d, 1) == WlanRow(lines[1].id, Strip(lines[1].profile), lines[1].status,
                                lines[1].interface, lines[1].mobility)
  {
    ParseSummary(header, lines, footer);
  }

  lemma SummaryRows(a: string, b: string)
    requires Word(a) && Word(b)
    ensures ParseDevice(map[ShowWlanSummary := Output(a, b)]).Success?
    ensures var d := ParseDevice(map[ShowWlanSummary := Output(a, b)]).value;
      && Aligned(d, 2)
      && RowAt(d, 0) == WlanRow(106, Strip(a + " "), "Enabled", "management", "none")
      && RowAt(d, 1) == WlanRow(107, Strip(b + " "), "Enabled", "management", "none")
  {
    FrameIsOneLinePerEntry();
    LinePrintable(a, 106);
    LinePrintable(b, 107);
    TwoRows(Header, Wlans(a, b), Footer);
  }

  lemma ExpectedRows(d: WlanData, a: string, b: string)
    requires Aligned(d, 2)
    requires RowAt(d, 0) == WlanRow(106, a, "Enabled", "management", "none")
    requires RowAt(d, 1) == WlanRow(107, b, "Enabled", "management", "none")
    ensures d == Expected(a, b)
  {
    var e := Expected(a, b);
    assert RowAt(d, 0) == RowAt(e, 0);
    assert RowAt(d, 1) == RowAt(e, 1);
    SameRows(d, e, 2);
  }

  /** The two data lines parse into WLANs 106 and 107 with SSIDs `a` and
      `b`: the slice drops the frame, the two-space cut finds the five
      cells, and the profile half before `/` is stripped of its blank. */
  lemma SummaryParses(a: string, b: string)
    requires Word(a) && Word(b)
    ensures ParseDevice(map[ShowWlanSummary := Output(a, b)]) == Success(Expected(a, b))
  {
    SummaryRows(a, b);
    WordStrip(a);
    WordStrip(b);
    ExpectedRows(ParseDevice(map[ShowWlanSummary := Output(a, b)]).value, a, b);
  }

  /** The output file: one entry, for the device with UUID u1. */
  function File(a: string, b: string): seq<CommandEntry> {
    [CommandEntry("u1", map[ShowWlanSummary := Output(a, b)])]
  }

  const Ids: map<string, string> := map["u1" := "10.0.0.1"]
  const Sites: map<string, string> := map["10.0.0.1" := "Global/Area1"]

  lemma OneSelected(uuid: string, ip: string, success: map<string, string>)
    requires |success| > 0
    ensures SelectDevices([CommandEntry(uuid, success)], map[uuid := ip]) == Success(Dict([(ip, success)]))
  {
    var file := [CommandEntry(uuid, success)];
    assert file[..0] == [];
    assert SelectDevices(file[..0], map[uuid := ip]) == Success(Empty());
  }

  lemma OneParsed(ip: string, success: map<string, string>, data: WlanData)
    requires ParseDevice(success) == Success(data)
    ensures ParseAll(Dict([(ip, success)])) == Success(Dict([(ip, data)]))
  {
    var r := ParseAll(Dict([(ip, success)]));
    assert r.Success?;
    assert |r.value.items| == 1;
    assert r.value.items[0] == (ip, data);
    assert r.value.items == [(ip, data)];
    assert r.value == Dict([(ip, data)]);
  }

  /** A file with a single successful entry parses into a single device. */
  lemma OneEntry(uuid: string, ip: string, success: map<string, string>, data: WlanData)
    requires |success| > 0 && ParseDevice(success) == Success(data)
    ensures ParseOutput([CommandEntry(uuid, success)], map[uuid := ip]) == Success(Dict([(ip, data)]))
  {
    OneSelected(uuid, ip, success);
    OneParsed(ip, success, data);
  }

  /** The parsed output holds one device, keyed by its address. */
  lemma FileParses(a: string, b: string)
    requires Word(a) && Word(b)
    ensures ParseOutput(File(a, b), Ids) == Success(Dict([("10.0.0.1", Expected(a, b))]))
  {
    SummaryParses(a, b);
    var success := map[ShowWlanSummary := Output(a, b)];
    assert ShowWlanSummary in success;
    OneEntry("u1", "10.0.0.1", success, Expected(a, b));
  }

  /** Profile order `a`, `b`: the controller complies. */
  lemma CompliantReport(a: string, b: string)
    requires Word(a) && Word(b)
    ensures ParseOutput(File(a, b), Ids).Success?
    ensures AuditConfig(ParseOutput(File(a, b), Ids).value, Sites, [a, b])
         == [ReportRow("10.0.0.1", "Wireless Controller", "Global/Area1", [a, b], [a, b], Yes)]
  {
    FileParses(a, b);
  }

  /** Profile order `b`, `a`: the same SSIDs, but not in sync. */
  lemma ReorderedReport(a: string, b: string)
    requires Word(a) && Word(b) && a != b
    ensures ParseOutput(File(a, b), Ids).Success?
    ensures AuditConfig(ParseOutput(File(a, b), Ids).value, Sites, [b, a])
         == [ReportRow("10.0.0.1", "Wireless Controller", "Global/Area1", [a, b], [b, a], NotInSync)]
  {
    FileParses(a, b);
    OrderMatters(a, b);
  }

  /** A device no site lists is reported as "Not Assigned". */
  lemma UnassignedReport(a: string, b: string)
    requires Word(a) && Word(b)
    ensures ParseOutput(File(a, b), Ids).Success?
    ensures AuditConfig(ParseOutput(File(a, b), Ids).value, map[], [a, b])[0].site == "Not Assigned"
  {
    FileParses(a, b);
  }

  /** The names used in the examples qualify. */
  lemma ExampleNames()
    ensures Word("Blizzard") && Word("Alpha")
  {
  }
}

=== FILE: wlan_parser.dfy ===
/** `parse_output`: turns the command-runner output file into, per device
    address, the five parallel columns of `show wlan summary`.

    The file is a list of entries, one per device, each holding the device
    UUID and the `SUCCESS` map from command text to command output.  Only
    entries whose `SUCCESS` map is non-empty are kept; they are keyed by the
    address the UUID maps to, in a Python dict, so a later entry for the
    same address replaces the earlier one's output but not its position.
    Each device's output is split into lines, the six header and two footer
    lines are dropped by the slice `[6:-2]`, and every remaining line is cut
    at runs of exactly two spaces into the WLAN fields.
 */
module WlanParser {
  import opened Outcomes
  import opened PyStr
  import opened PyDict

  /** The command whose output is parsed. */
  const ShowWlanSummary: string := "show wlan summary"

  /** The column separator: exactly two spaces. */
  const ColumnSeparator: string := "  "

  /** One entry of the output file: `deviceUuid` and `commandResponses.SUCCESS`. */
  datatype CommandEntry = CommandEntry(deviceUuid: string, success: map<string, string>)

  /** One parsed line of `show wlan summary`. */
  datatype WlanRow = WlanRow(id: int, ssid: string, status: string, interface: string, mobility: string)

  /** The per-device dict of five lists: 'WLAN ID', 'WLAN Profile Name / SSID',
      'Status', 'Interface Name' and 'PMIPv6 Mobility'. */
  datatype WlanData = WlanData(ids: seq<int>, ssids: seq<string>, status: seq<string>,
                               interfaces: seq<string>, mobility: seq<string>)

  /** All five columns have `n` entries. */
  predicate Aligned(d: WlanData, n: nat) {
    |d.ids| == n && |d.ssids| == n && |d.status| == n && |d.interfaces| == n && |d.mobility| == n
  }

  /** Row `k` read across the five columns. */
  function RowAt(d: WlanData, k: nat): WlanRow
    requires Aligned(d, |d.ids|) && k < |d.ids|
  {
    WlanRow(d.ids[k], d.ssids[k], d.status[k], d.interfaces[k], d.mobility[k])
  }

  // ---------------------------------------------------------------------
  // One row
  // ---------------------------------------------------------------------

  /** The pieces from `k` on that are not empty, in their order. */
  function NonEmptyFrom(pieces: seq<string>, k: nat): (kept: seq<string>)
    requires k <= |pieces|
    ensures |kept| <= |pieces| - k
    decreases |pieces| - k
  {
    if k == |pieces| then []
    else if pieces[k] == "" then NonEmptyFrom(pieces, k + 1)
    else [pieces[k]] + NonEmptyFrom(pieces, k + 1)
  }

  /** Where, from `k` on, the non-empty pieces are. */
  function PositionsFrom(pieces: seq<string>, k: nat): (ks: seq<nat>)
    requires k <= |pieces|
    ensures |ks| <= |pieces| - k
    decreases |pieces| - k
  {
    if k == |pieces| then []
    else if pieces[k] == "" then PositionsFrom(pieces, k + 1)
    else [k] + PositionsFrom(pieces, k + 1)
  }

  /** The positions of the non-empty pieces, in increasing order. */
  function NonEmptyAt(pieces: seq<string>): (ks: seq<nat>)
    ensures forall i :: 0 <= i < |ks| ==> ks[i] < |pieces| && pieces[ks[i]] != ""
    ensures forall i, j :: 0 <= i < j < |ks| ==> ks[i] < ks[j]
    ensures forall m :: 0 <= m < |pieces| && pieces[m] != "" ==> m in ks
  {
    PositionsAreNonEmpty(pieces, 0);
    PositionsFrom(pieces, 0)
  }

  lemma {:induction false} PositionsAreNonEmpty(pieces: seq<string>, k: nat)
    requires k <= |pieces|
    ensures forall i :: 0 <= i < |PositionsFrom(pieces, k)| ==>
              k <= PositionsFrom(pieces, k)[i] < |pieces| && pieces[PositionsFrom(pieces, k)[i]] != ""
    ensures forall i, j :: 0 <= i < j < |PositionsFrom(pieces, k)| ==>
              PositionsFrom(pieces, k)[i] < PositionsFrom(pieces, k)[j]
    ensures forall m :: k <= m < |pieces| && pieces[m] != "" ==> m in PositionsFrom(pieces, k)
    decreases |pieces| - k
  {
    if k < |pieces| {
      PositionsAreNonEmpty(pieces, k + 1);
    }
  }

  /** The kept pieces are the pieces at those positions. */
  lemma {:induction false} KeptAt(pieces: seq<string>, k: nat)
    requires k <= |pieces|
    ensures |NonEmptyFrom(pieces, k)| == |PositionsFrom(pieces, k)|
    ensures forall i :: 0 <= i < |PositionsFrom(pieces, k)| ==>
              PositionsFrom(pieces, k)[i] < |pieces| &&
              NonEmptyFrom(pieces, k)[i] == pieces[PositionsFrom(pieces, k)[i]]
    decreases |pieces| - k
  {
    if k < |pieces| {
      KeptAt(pieces, k + 1);
    }
  }

  /** `f` applied to each element, in order. */
  function Map<T, U>(f: T -> U, xs: seq<T>): (ys: seq<U>)
    ensures |ys| == |xs| && forall i :: 0 <= i < |xs| ==> ys[i] == f(xs[i])
  {
    seq(|xs|, i requires 0 <= i < |xs| => f(xs[i]))
  }

  lemma MapConcat<T, U>(f: T -> U, a: seq<T>, b: seq<T>)
    ensures Map(f, a + b) == Map(f, a) + Map(f, b)
  {
  }

  /** `[r.strip() for r in pieces if r != '']`.  Empty pieces are dropped
      before the strip, so a piece of whitespace alone survives as the empty
      string. */
  function StripNonEmpty(pieces: seq<string>): (values: seq<string>)
    ensures |values| <= |pieces|
    ensures forall i :: 0 <= i < |values| ==> Trimmed(values[i])
  {
    Map(Strip, NonEmptyFrom(pieces, 0))
  }

  /** The values are the non-empty pieces, in order, each stripped. */
  lemma StripNonEmptyValues(pieces: seq<string>)
    ensures |StripNonEmpty(pieces)| == |NonEmptyAt(pieces)|
    ensures forall i :: 0 <= i < |NonEmptyAt(pieces)| ==>
              StripNonEmpty(pieces)[i] == Strip(pieces[NonEmptyAt(pieces)[i]])
  {
    KeptAt(pieces, 0);
  }

  /** A non-empty piece of whitespace alone is what puts an empty value in
      a row; no other piece can. */
  lemma WhitespacePieceSurvives(pieces: seq<string>)
    ensures "" in StripNonEmpty(pieces) <==>
      exists k :: 0 <= k < |pieces| && pieces[k] != "" && AllSpace(pieces[k])
  {
    var values, ks := StripNonEmpty(pieces), NonEmptyAt(pieces);
    StripNonEmptyValues(pieces);
    if "" in values {
      var i :| 0 <= i < |values| && values[i] == "";
      StripEmptyIff(pieces[ks[i]]);
    }
    if exists k :: 0 <= k < |pieces| && pieces[k] != "" && AllSpace(pieces[k]) {
      var k :| 0 <= k < |pieces| && pieces[k] != "" && AllSpace(pieces[k]);
      var i :| 0 <= i < |ks| && ks[i] == k;
      StripEmptyIff(pieces[k]);
      assert values[i] == "";
    }
  }

  /** No value holds a separator when no piece does. */
  lemma ValuesWithoutSeparator(pieces: seq<string>, sep: string)
    requires forall i :: 0 <= i < |pieces| ==> !Contains(pieces[i], sep)
    ensures forall i :: 0 <= i < |StripNonEmpty(pieces)| ==> !Contains(StripNonEmpty(pieces)[i], sep)
  {
    StripNonEmptyValues(pieces);
    var ks := NonEmptyAt(pieces);
    forall i | 0 <= i < |ks| ensures !Contains(Strip(pieces[ks[i]]), sep) {
      NoSeparatorInStrip(pieces[ks[i]], sep);
    }
  }

  /** The values of one row: each is trimmed and holds no two-space run,
      since the row was cut at every such run. */
  function Tokens(row: string): (values: seq<string>)
    ensures forall i :: 0 <= i < |values| ==> Trimmed(values[i]) && !Contains(values[i], ColumnSeparator)
  {
    ValuesWithoutSeparator(Split(row, ColumnSeparator), ColumnSeparator);
    StripNonEmpty(Split(row, ColumnSeparator))
  }

  /** One row: the WLAN ID as an integer, the text before the first `/` of
      the profile column, stripped, and the next three values verbatim.
      Fewer than five values is an IndexError (or a ValueError, when the
      first value is not a number); values past the fifth are ignored. */
  function ParseRow(row: string): (r: Result<WlanRow>)
    ensures r.Success? <==> |Tokens(row)| >= 5 && ParseInt(Tokens(row)[0]).Success?
    ensures r.Success? ==>
      && r.value.id == ParseInt(Tokens(row)[0]).value
      && '/' !in r.value.ssid && Trimmed(r.value.ssid)
      && r.value.status == Tokens(row)[2]
      && r.value.interface == Tokens(row)[3]
      && r.value.mobility == Tokens(row)[4]
      && r.value.ssid == SsidOf(Tokens(row)[1])
    ensures |Tokens(row)| == 0 ==> r == Failure(IndexError)
  {
    var values := Tokens(row);
    if |values| == 0 then Failure(IndexError)
    else
      var id :- ParseInt(values[0]);
      if |values| < 5 then Failure(IndexError)
      else Success(WlanRow(id, SsidOf(values[1]), values[2], values[3], values[4]))
  }

  /** The SSID column value: the text before its first `/` (all of it when
      there is none), stripped. */
  function SsidOf(column: string): (ssid: string)
    ensures '/' !in ssid && Trimmed(ssid)
    ensures exists n :: 0 <= n <= |column| && '/' !in column[..n]
              && (n == |column| || column[n] == '/') && ssid == Strip(column[..n])
  {
    var head := Split(column, "/")[0];
    HeadBefore(column, '/');
    NotInStrip(head, '/');
    var n := |head|;
    assert column[..n] == head;
    Strip(head)
  }

  // ---------------------------------------------------------------------
  // One device's output
  // ---------------------------------------------------------------------

  /** `blob.split('\n')[6:-2]`: the data lines. */
  function Rows(blob: string): (rows: seq<string>)
    ensures |rows| == if |Split(blob, "\n")| >= 8 then |Split(blob, "\n")| - 8 else 0
    ensures forall k :: 0 <= k < |rows| ==> rows[k] == Split(blob, "\n")[6 + k]
  {
    SliceDropsHeaderAndFooter(Split(blob, "\n"));
    Slice(Split(blob, "\n"), 6, -2)
  }

  function Prepend(w: WlanRow, d: WlanData): WlanData {
    WlanData([w.id] + d.ids, [w.ssid] + d.ssids, [w.status] + d.status,
             [w.interface] + d.interfaces, [w.mobility] + d.mobility)
  }

  /** Row results gathered into five parallel columns, in order; the first
      failure, if any, is the result. */
  function Columns(results: seq<Result<WlanRow>>): (r: Result<WlanData>)
    ensures r.Success? <==> forall k :: 0 <= k < |results| ==> results[k].Success?
    ensures r.Success? ==> Aligned(r.value, |results|)
    ensures r.Success? ==> forall k :: 0 <= k < |results| ==> RowAt(r.value, k) == results[k].value
    ensures r.Failure? ==> exists k :: 0 <= k < |results| && results[k] == Failure(r.error)
                                  && forall j :: 0 <= j < k ==> results[j].Success?
    decreases |results|
  {
    if |results| == 0 then Success(WlanData([], [], [], [], []))
    else
      var rest := Columns(results[1..]);
      assert forall k :: 1 <= k < |results| ==> results[1..][k - 1] == results[k];
      if results[0].Failure? then Failure(results[0].error)
      else if rest.Failure? then
        var k :| 0 <= k < |results| - 1 && results[1..][k] == Failure(rest.error)
                 && forall j :: 0 <= j < k ==> results[1..][j].Success?;
        assert results[k + 1] == Failure(rest.error);
        Failure(rest.error)
      else
        var d := Prepend(results[0].value, rest.value);
        assert forall k :: 1 <= k < |results| ==> RowAt(d, k) == RowAt(rest.value, k - 1);
        Success(d)
  }

  /** The rows, in order, into five parallel columns; the first row that
      does not parse decides the error. */
  function ParseRows(rows: seq<string>): (r: Result<WlanData>)
    ensures r.Success? <==> forall k :: 0 <= k < |rows| ==> ParseRow(rows[k]).Success?
    ensures r.Success? ==> Aligned(r.value, |rows|)
    ensures r.Success? ==> forall k :: 0 <= k < |rows| ==> RowAt(r.value, k) == ParseRow(rows[k]).value
    ensures r.Failure? ==> exists k :: 0 <= k < |rows| && ParseRow(rows[k]) == Failure(r.error)
                                  && forall j :: 0 <= j < k ==> ParseRow(rows[j]).Success?
  {
    Columns(RowResults(rows))
  }

  /** `ParseRow` applied to every row. */
  function RowResults(rows: seq<string>): (results: seq<Result<WlanRow>>)
    ensures |results| == |rows|
    ensures forall k :: 0 <= k < |rows| ==> results[k] == ParseRow(rows[k])
  {
    seq(|rows|, k requires 0 <= k < |rows| => ParseRow(rows[k]))
  }

  /** One device's `SUCCESS` map: its `show wlan summary` output, parsed. */
  function ParseDevice(success: map<string, string>): (r: Result<WlanData>)
    ensures ShowWlanSummary !in success ==> r == Failure(KeyError(ShowWlanSummary))
    ensures r.Success? ==> Aligned(r.value, |Rows(success[ShowWlanSummary])|)
  {
    if ShowWlanSummary !in success then Failure(KeyError(ShowWlanSummary))
    else ParseRows(Rows(success[ShowWlanSummary]))
  }

  // ---------------------------------------------------------------------
  // Device selection
  // ---------------------------------------------------------------------

  /** The entry ran the command successfully on its device. */
  predicate Selected(e: CommandEntry) {
    |e.success| > 0
  }

  /** Every selected entry's UUID is a known device. */
  predicate AllKnown(output: seq<CommandEntry>, ids: map<string, string>) {
    forall j :: 0 <= j < |output| && Selected(output[j]) ==> output[j].deviceUuid in ids
  }

  /** The addresses of the selected entries, in file order, repeats kept. */
  function SelectedIps(output: seq<CommandEntry>, ids: map<string, string>): seq<string>
    requires AllKnown(output, ids)
    decreases |output|
  {
    if |output| == 0 then []
    else
      var prefix := output[..|output| - 1];
      var last := output[|output| - 1];
      assert forall j :: 0 <= j < |prefix| ==> prefix[j] == output[j];
      SelectedIps(prefix, ids) + (if Selected(last) then [ids[last.deviceUuid]] else [])
  }

  /** The list without repeats, each element where it first occurred. */
  function FirstOccurrences(xs: seq<string>): (r: seq<string>)
    ensures Distinct(r)
    ensures forall x :: x in r <==> x in xs
    decreases |xs|
  {
    if |xs| == 0 then []
    else
      var prefix := xs[..|xs| - 1];
      var last := xs[|xs| - 1];
      var r := FirstOccurrences(prefix);
      assert forall x :: x in xs <==> x in prefix || x == last;
      if last in r then r else r + [last]
  }

  /** Distinct elements keep the order of their first occurrences: an
      element placed before another already occurs in the input before any
      occurrence of the later one. */
  lemma {:induction false} FirstOccurrencesOrder(xs: seq<string>)
    ensures forall i, j, q ::
              (0 <= i < j < |FirstOccurrences(xs)| && 0 <= q < |xs| && xs[q] == FirstOccurrences(xs)[j])
              ==> FirstOccurrences(xs)[i] in xs[..q]
    decreases |xs|
  {
    if |xs| > 0 {
      var prefix := xs[..|xs| - 1];
      var last := xs[|xs| - 1];
      var r, r' := FirstOccurrences(xs), FirstOccurrences(prefix);
      FirstOccurrencesOrder(prefix);
      assert r == r' || (last !in r' && r == r' + [last]);
      forall i, j, q | 0 <= i < j < |r| && 0 <= q < |xs| && xs[q] == r[j]
        ensures r[i] in xs[..q]
      {
        if q < |prefix| {
          assert prefix[q] == xs[q] && prefix[..q] == xs[..q];
          assert r[j] in r';
          assert r'[i] == r[i] && r'[j] == r[j];
        } else {
          assert xs[..q] == prefix;
          assert r[i] == r'[i];
        }
      }
    }
  }

  /** The first loop of `parse_output`: address to `SUCCESS` map, for
      every entry with a non-empty `SUCCESS`.  An unknown UUID is a
      KeyError. */
  function SelectDevices(output: seq<CommandEntry>, ids: map<string, string>): (r: Result<Dict<map<string, string>>>)
    ensures r.Success? <==> AllKnown(output, ids)
    ensures r.Success? ==> Valid(r.value)
    ensures r.Success? ==> Keys(r.value) == FirstOccurrences(SelectedIps(output, ids))
    decreases |output|
  {
    if |output| == 0 then Success(Empty())
    else
      var prefix := output[..|output| - 1];
      var last := output[|output| - 1];
      var rest := SelectDevices(prefix, ids);
      AllKnownSnoc(output, ids);
      if rest.Failure? then Failure(rest.error)
      else if !Selected(last) then
        assert SelectedIps(output, ids) == SelectedIps(prefix, ids);
        rest
      else if last.deviceUuid !in ids then Failure(KeyError(last.deviceUuid))
      else
        var d := rest.value;
        var ip := ids[last.deviceUuid];
        var xs := SelectedIps(prefix, ids);
        assert SelectedIps(output, ids) == xs + [ip];
        PutValid(d, ip, last.success);
        PutFirstOccurrences(d, xs, ip, last.success);
        Success(Put(d, ip, last.success))
  }

  lemma AllKnownSnoc(output: seq<CommandEntry>, ids: map<string, string>)
    requires |output| > 0
    ensures AllKnown(output, ids) <==>
      && AllKnown(output[..|output| - 1], ids)
      && (Selected(output[|output| - 1]) ==> output[|output| - 1].deviceUuid in ids)
  {
    var prefix := output[..|output| - 1];
    assert forall j :: 0 <= j < |prefix| ==> prefix[j] == output[j];
  }

  /** Assigning to a key keeps the dict's keys the first occurrences of the
      assignments made so far. */
  lemma PutFirstOccurrences<V>(d: Dict<V>, xs: seq<string>, k: string, v: V)
    requires Keys(d) == FirstOccurrences(xs)
    ensures Keys(Put(d, k, v)) == FirstOccurrences(xs + [k])
  {
    assert (xs + [k])[..|xs|] == xs;
  }

  /** For each address, the output kept is that of the last selected entry
      mapping to it. */
  lemma {:induction false} SelectLastWins(output: seq<CommandEntry>, ids: map<string, string>, j: nat)
    requires SelectDevices(output, ids).Success?
    requires j < |output| && Selected(output[j])
    requires forall k :: j < k < |output| && Selected(output[k]) ==>
               ids[output[k].deviceUuid] != ids[output[j].deviceUuid]
    ensures output[j].deviceUuid in ids
    ensures Get(SelectDevices(output, ids).value, ids[output[j].deviceUuid]) == Some(output[j].success)
    decreases |output|
  {
    var prefix := output[..|output| - 1];
    var last := output[|output| - 1];
    assert forall k :: 0 <= k < |prefix| ==> prefix[k] == output[k];
    var d := SelectDevices(prefix, ids).value;
    var ip := ids[output[j].deviceUuid];
    if j == |output| - 1 {
      PutGet(d, ip, last.success, ip);
    } else {
      SelectLastWins(prefix, ids, j);
      if Selected(last) {
        PutGet(d, ids[last.deviceUuid], last.success, ip);
      }
    }
  }

  // ---------------------------------------------------------------------
  // parse_output
  // ---------------------------------------------------------------------

  /** Parsed devices gathered back into a dict under their addresses, in
      order; the first failure, if any, is the result. */
  function Gather(keys: seq<string>, results: seq<Result<WlanData>>): (r: Result<Dict<WlanData>>)
    requires |keys| == |results|
    ensures r.Success? <==> forall i :: 0 <= i < |results| ==> results[i].Success?
    ensures r.Success? ==> |r.value.items| == |keys|
    ensures r.Success? ==> forall i :: 0 <= i < |keys| ==> r.value.items[i] == (keys[i], results[i].value)
    decreases |keys|
  {
    if |keys| == 0 then Success(Empty())
    else
      var rest := Gather(keys[1..], results[1..]);
      assert forall i :: 1 <= i < |keys| ==> keys[1..][i - 1] == keys[i] && results[1..][i - 1] == results[i];
      if results[0].Failure? then Failure(results[0].error)
      else if rest.Failure? then Failure(rest.error)
      else Success(Dict([(keys[0], results[0].value)] + rest.value.items))
  }

  /** The second loop of `parse_output`: every selected device's output
      parsed, keys in the same order. */
  function ParseAll(d: Dict<map<string, string>>): (r: Result<Dict<WlanData>>)
    ensures r.Success? <==> forall i :: 0 <= i < |d.items| ==> ParseDevice(d.items[i].1).Success?
    ensures r.Success? ==> Keys(r.value) == Keys(d)
    ensures r.Success? ==> forall i :: 0 <= i < |d.items| ==>
              r.value.items[i].1 == ParseDevice(d.items[i].1).value
  {
    var r := Gather(Keys(d), seq(|d.items|, i requires 0 <= i < |d.items| => ParseDevice(d.items[i].1)));
    if r.Success? then
      assert Keys(r.value) == Keys(d);
      r
    else r
  }

  /** Every selected entry names a known device, and the `SUCCESS` output
      kept for each address parses. */
  predicate EveryDeviceParses(output: seq<CommandEntry>, ids: map<string, string>) {
    && AllKnown(output, ids)
    && forall i :: 0 <= i < |SelectDevices(output, ids).value.items| ==>
         ParseDevice(SelectDevices(output, ids).value.items[i].1).Success?
  }

  /** `parse_output(output, device_ids_dict)`: one entry per address that
      ran the command, in order of first appearance, each with its columns
      aligned to its data lines. */
  function ParseOutput(output: seq<CommandEntry>, ids: map<string, string>): (r: Result<Dict<WlanData>>)
    ensures r.Success? <==> EveryDeviceParses(output, ids)
    ensures r.Success? ==> Valid(r.value)
    ensures r.Success? ==> Keys(r.value) == FirstOccurrences(SelectedIps(output, ids))
    ensures r.Success? ==> SelectDevices(output, ids).Success?
    ensures r.Success? ==> forall i :: 0 <= i < |r.value.items| ==>
              var success := SelectDevices(output, ids).value.items[i].1;
              ParseDevice(success).Success? && r.value.items[i].1 == ParseDevice(success).value
  {
    var selected :- SelectDevices(output, ids);
    var parsed :- ParseAll(selected);
    assert Keys(parsed) == Keys(selected);
    Success(parsed)
  }

  /** The columns parsed for an address are those of the last selected
      entry that maps to it. */
  lemma ParseOutputLastWins(output: seq<CommandEntry>, ids: map<string, string>, j: nat)
    requires ParseOutput(output, ids).Success?
    requires j < |output| && Selected(output[j])
    requires forall k :: j < k < |output| && Selected(output[k]) ==>
               ids[output[k].deviceUuid] != ids[output[j].deviceUuid]
    ensures output[j].deviceUuid in ids
    ensures ParseDevice(output[j].success).Success?
    ensures Get(ParseOutput(output, ids).value, ids[output[j].deviceUuid])
         == Some(ParseDevice(output[j].success).value)
  {
    var selected := SelectDevices(output, ids).value;
    var parsed := ParseOutput(output, ids).value;
    SelectLastWins(output, ids, j);
    var ip := ids[output[j].deviceUuid];
    var i :| 0 <= i < |Keys(selected)| && Keys(selected)[i] == ip;
    GetAt(selected, i);
    assert Keys(parsed)[i] == Keys(selected)[i];
    GetAt(parsed, i);
  }

  // ---------------------------------------------------------------------
  // Properties of the row format
  // ---------------------------------------------------------------------

  /** The lines between a six-line header and a two-line footer are exactly
      the rows handed to the row parser. */
  lemma FramedBlob(header: seq<string>, rows: seq<string>, footer: seq<string>)
    requires |header| == 6 && |footer| == 2
    requires forall i :: 0 <= i < |header + rows + footer| ==> '\n' !in (header + rows + footer)[i]
    ensures Rows(Join(header + rows + footer, "\n")) == rows
  {
    var lines := header + rows + footer;
    SplitJoinChar(lines, '\n');
    SliceFramed(header, rows, footer);
  }

  /** A blob of fewer than eight lines has no data rows. */
  lemma ShortBlobHasNoRows(blob: string)
    requires |Split(blob, "\n")| < 8
    ensures Rows(blob) == []
  {
  }

  /** A cell of the table: non-empty, no two-space run, and no whitespace
      at either end. */
  predicate Cell(s: string) {
    |s| > 0 && !Contains(s, ColumnSeparator) && Trimmed(s)
  }

  /** A piece ending in a non-space, with no two-space run, ends exactly at
      the separator after it. */
  lemma EndsAtColumnSeparator(p: string)
    requires !Contains(p, ColumnSeparator)
    requires |p| == 0 || p[|p| - 1] != ' '
    ensures EndsAtSeparator(p, ColumnSeparator)
  {
    var t := p + ColumnSeparator;
    assert t[|p|..|p| + 2] == ColumnSeparator;
    forall j | 0 <= j < |p| ensures !OccursAt(t, ColumnSeparator, j) {
      if j + 2 <= |p| {
        assert t[j..j + 2] == p[j..j + 2];
        assert !OccursAt(p, ColumnSeparator, j);
      } else {
        assert t[j..j + 2][0] == t[j] == p[|p| - 1];
      }
    }
    FindIs(t, ColumnSeparator, |p|);
  }

  /** Cells joined with the separator split back into the cells, and are
      their own values. */
  lemma {:induction false} TokensOfCells(cells: seq<string>)
    requires |cells| >= 1
    requires forall i :: 0 <= i < |cells| ==> Cell(cells[i])
    ensures Tokens(Join(cells, ColumnSeparator)) == cells
  {
    forall i | 0 <= i < |cells| ensures EndsAtSeparator(cells[i], ColumnSeparator) {
      EndsAtColumnSeparator(cells[i]);
    }
    SplitJoin(cells, ColumnSeparator);
    StripCells(cells);
  }

  /** Cells survive the filter and the strip unchanged. */
  lemma StripCells(cells: seq<string>)
    requires forall i :: 0 <= i < |cells| ==> Cell(cells[i])
    ensures StripNonEmpty(cells) == cells
  {
    KeepCells(cells, 0);
    forall i | 0 <= i < |cells| ensures Map(Strip, cells)[i] == cells[i] {
      StripTrimmed(cells[i]);
    }
  }

  lemma {:induction false} KeepCells(cells: seq<string>, k: nat)
    requires k <= |cells|
    requires forall i :: 0 <= i < |cells| ==> cells[i] != ""
    ensures NonEmptyFrom(cells, k) == cells[k..]
    decreases |cells| - k
  {
    if k < |cells| {
      KeepCells(cells, k + 1);
      assert cells[k..] == [cells[k]] + cells[k + 1..];
    }
  }

  /** The kept pieces of a list that starts with `pre`, from past `pre` on,
      are those of the rest. */
  lemma {:induction false} KeepShift(pre: seq<string>, rest: seq<string>, k: nat)
    requires k <= |rest|
    ensures NonEmptyFrom(pre + rest, |pre| + k) == NonEmptyFrom(rest, k)
    decreases |rest| - k
  {
    if k < |rest| {
      assert (pre + rest)[|pre| + k] == rest[k];
      KeepShift(pre, rest, k + 1);
    }
  }

  /** The first piece, if it is kept, then the kept pieces of the rest. */
  lemma KeepCons(p: string, rest: seq<string>)
    ensures NonEmptyFrom([p] + rest, 0) == (if p == "" then [] else [p]) + NonEmptyFrom(rest, 0)
  {
    KeepShift([p], rest, 0);
  }

  /** The first piece's value, if it has one, then the others'. */
  lemma StripNonEmptyCons(p: string, rest: seq<string>)
    ensures StripNonEmpty([p] + rest) == (if p == "" then [] else [Strip(p)]) + StripNonEmpty(rest)
  {
    var head: seq<string> := if p == "" then [] else [p];
    KeepCons(p, rest);
    MapConcat(Strip, head, NonEmptyFrom(rest, 0));
    assert Map(Strip, head) == if p == "" then [] else [Strip(p)];
  }

  /** A run of `n` spaces. */
  function Spaces(n: nat): (r: string)
    ensures |r| == n && forall i :: 0 <= i < n ==> r[i] == ' '
  {
    seq(n, _ => ' ')
  }

  /** Cells separated by runs of spaces of the given lengths: how a
      controller pads the columns of its table. */
  function Spread(cells: seq<string>, gaps: seq<nat>): string
    requires |cells| >= 1 && |gaps| == |cells| - 1
    decreases |cells|
  {
    if |cells| == 1 then cells[0]
    else cells[0] + Spaces(gaps[0]) + Spread(cells[1..], gaps[1..])
  }

  lemma SpreadStarts(cells: seq<string>, gaps: seq<nat>)
    requires |cells| >= 1 && |gaps| == |cells| - 1 && |cells[0]| > 0
    ensures |Spread(cells, gaps)| > 0 && Spread(cells, gaps)[0] == cells[0][0]
  {
  }

  /** A text that does not start with a space: one space before it joins
      its first piece. */
  lemma SplitOneSpace(u: string)
    requires u == "" || u[0] != ' '
    ensures Split(" " + u, ColumnSeparator)
         == [" " + Split(u, ColumnSeparator)[0]] + Split(u, ColumnSeparator)[1..]
  {
    var s := " " + u;
    assert s[1..] == u;
    if |s| >= 2 {
      assert s[..2][1] == u[0];
    }
    match Find(u, ColumnSeparator)
    case None =>
    case Some(k) =>
      assert s[..k + 1] == " " + u[..k];
      assert s[k + 1 + 2..] == u[k + 2..];
  }

  /** The first piece of a text that does not start with a space is not
      empty. */
  lemma FirstPieceNonEmpty(u: string)
    requires |u| > 0 && u[0] != ' '
    ensures Split(u, ColumnSeparator)[0] != ""
  {
    assert !OccursAt(u, ColumnSeparator, 0) by {
      if |u| >= 2 {
        assert u[0..2][0] == u[0];
      }
    }
  }

  /** Spaces before the first cell of a row change none of its values:
      an even run splits off empty pieces, which are dropped, and an odd one
      leaves one space in front of the first piece, which the strip
      removes. */
  lemma {:induction false} LeadingSpacesTokens(m: nat, u: string)
    requires |u| > 0 && u[0] != ' '
    ensures Tokens(Spaces(m) + u) == Tokens(u)
    decreases m
  {
    if m == 0 {
      assert Spaces(m) + u == u;
    } else if m == 1 {
      assert Spaces(m) + u == " " + u;
      SplitOneSpace(u);
      var parts := Split(u, ColumnSeparator);
      var h := parts[0];
      FirstPieceNonEmpty(u);
      StripNonEmptyCons(" " + h, parts[1..]);
      StripNonEmptyCons(h, parts[1..]);
      StripOneSpace(h);
      assert parts == [h] + parts[1..];
    } else {
      var t := Spaces(m - 2) + u;
      assert Spaces(m) + u == "" + ColumnSeparator + t;
      assert EndsAtSeparator("", ColumnSeparator);
      SplitAfter("", ColumnSeparator, t);
      StripNonEmptyCons("", Split(t, ColumnSeparator));
      LeadingSpacesTokens(m - 2, u);
    }
  }

  /** A cell, then a run of two or more spaces, then a text that starts
      with neither a space nor a separator: the cell is the first value and
      the text gives the rest. */
  lemma GapTokens(c: string, g: nat, rest: string)
    requires Cell(c) && g >= 2 && |rest| > 0 && rest[0] != ' '
    ensures Tokens(c + Spaces(g) + rest) == [c] + Tokens(rest)
  {
    var t := Spaces(g - 2) + rest;
    assert Spaces(g) == ColumnSeparator + Spaces(g - 2);
    assert c + Spaces(g) + rest == c + ColumnSeparator + t;
    EndsAtColumnSeparator(c);
    SplitAfter(c, ColumnSeparator, t);
    StripNonEmptyCons(c, Split(t, ColumnSeparator));
    StripTrimmed(c);
    LeadingSpacesTokens(g - 2, rest);
  }

  /** Cells separated by runs of two or more spaces are the values of the
      row: a longer run only adds empty pieces, or a piece with one leading
      space, and neither changes the values. */
  lemma {:induction false} TokensOfSpread(cells: seq<string>, gaps: seq<nat>)
    requires |cells| >= 1 && |gaps| == |cells| - 1
    requires forall i :: 0 <= i < |cells| ==> Cell(cells[i])
    requires forall i :: 0 <= i < |gaps| ==> gaps[i] >= 2
    ensures Tokens(Spread(cells, gaps)) == cells
    decreases |cells|
  {
    var c := cells[0];
    if |cells| == 1 {
      StripTrimmed(c);
      assert Find(c, ColumnSeparator).None?;
      StripNonEmptyCons(c, []);
    } else {
      var tail, gs := cells[1..], gaps[1..];
      assert forall i :: 0 <= i < |tail| ==> tail[i] == cells[i + 1];
      assert forall i :: 0 <= i < |gs| ==> gs[i] == gaps[i + 1];
      SpreadStarts(tail, gs);
      GapTokens(c, gaps[0], Spread(tail, gs));
      TokensOfSpread(tail, gs);
      assert cells == [c] + tail;
    }
  }

  /** A row indented by any number of spaces, with its cells separated by
      runs of two or more spaces, has exactly those cells as its values. */
  lemma TokensOfRuns(cells: seq<string>, gaps: seq<nat>, lead: nat)
    requires |cells| >= 1 && |gaps| == |cells| - 1
    requires forall i :: 0 <= i < |cells| ==> Cell(cells[i])
    requires forall i :: 0 <= i < |gaps| ==> gaps[i] >= 2
    ensures Tokens(Spaces(lead) + Spread(cells, gaps)) == cells
  {
    SpreadStarts(cells, gaps);
    LeadingSpacesTokens(lead, Spread(cells, gaps));
    TokensOfSpread(cells, gaps);
  }

  /** The row layout of `show wlan summary` with the given fields. */
  function RenderRow(id: int, profile: string, suffix: string, status: string,
                     interface: string, mobility: string): string {
    Join([Show(id), profile + "/" + suffix, status, interface, mobility], ColumnSeparator)
  }

  lemma NoSpaceNoSeparator(s: string)
    requires forall i :: 0 <= i < |s| ==> s[i] != ' '
    ensures !Contains(s, ColumnSeparator)
  {
    forall j | 0 <= j <= |s| ensures !OccursAt(s, ColumnSeparator, j) {
      if j + 2 <= |s| {
        assert s[j..j + 2][0] == s[j];
      }
    }
  }

  lemma ShowIsCell(n: int)
    ensures Cell(Show(n))
  {
    var s := Show(n);
    if n < 0 {
      var ds := ShowNat(-n);
      assert s == "-" + ds;
      assert forall i :: 1 <= i < |s| ==> s[i] == ds[i - 1];
      DigitNotSpace('-');
    }
    NoSpaceNoSeparator(s);
    DigitNotSpace(s[|s| - 1]);
    DigitNotSpace(s[0]);
  }

  /** Parsing inverts the row layout: the WLAN ID comes back, the profile
      column yields the text before its `/`, stripped, and the last three
      cells come back as they were. */
  lemma ParseRenderedRow(id: int, profile: string, suffix: string, status: string,
                         interface: string, mobility: string)
    requires '/' !in profile
    requires Cell(profile + "/" + suffix) && Cell(status) && Cell(interface) && Cell(mobility)
    ensures ParseRow(RenderRow(id, profile, suffix, status, interface, mobility))
         == Success(WlanRow(id, Strip(profile), status, interface, mobility))
  {
    var cells := [Show(id), profile + "/" + suffix, status, interface, mobility];
    ShowIsCell(id);
    TokensOfCells(cells);
    ParseShow(id);
    HeadBeforeJoin(profile, '/', suffix);
    assert profile + "/" + suffix == profile + ['/'] + suffix;
  }

  // ---------------------------------------------------------------------
  // A whole rendered summary
  // ---------------------------------------------------------------------

  /** The fields of one WLAN as the controller prints them: the profile
      column is the profile name, a `/` and the rest of the column. */
  datatype Line = Line(id: int, profile: string, suffix: string, status: string,
                       interface: string, mobility: string)

  /** The fields fit the layout: table cells, one line each, and a profile
      name without `/`. */
  predicate Printable(l: Line) {
    && '/' !in l.profile
    && Cell(l.profile + "/" + l.suffix) && Cell(l.status) && Cell(l.interface) && Cell(l.mobility)
    && '\n' !in l.profile + "/" + l.suffix && '\n' !in l.status
    && '\n' !in l.interface && '\n' !in l.mobility
  }

  function Render(l: Line): string {
    RenderRow(l.id, l.profile, l.suffix, l.status, l.interface, l.mobility)
  }

  /** The rows of the given WLANs, in order. */
  function RenderAll(lines: seq<Line>): (rows: seq<string>)
    ensures |rows| == |lines|
    ensures forall i :: 0 <= i < |lines| ==> rows[i] == Render(lines[i])
  {
    seq(|lines|, i requires 0 <= i < |lines| => Render(lines[i]))
  }

  /** A `show wlan summary` output: header, one row per WLAN, footer. */
  function Summary(header: seq<string>, lines: seq<Line>, footer: seq<string>): string
    requires |header| > 0
  {
    Join(header + RenderAll(lines) + footer, "\n")
  }

  lemma ShowHasNoNewline(n: int)
    ensures '\n' !in Show(n)
  {
    var ds := ShowNat(if n < 0 then -n else n);
    assert forall i :: 0 <= i < |ds| ==> ds[i] != '\n';
  }

  /** A printable WLAN renders to one line that parses back. */
  lemma ParsePrintable(l: Line)
    requires Printable(l)
    ensures '\n' !in Render(l)
    ensures ParseRow(Render(l)) == Success(WlanRow(l.id, Strip(l.profile), l.status, l.interface, l.mobility))
  {
    ShowHasNoNewline(l.id);
    NotInJoin([Show(l.id), l.profile + "/" + l.suffix, l.status, l.interface, l.mobility],
              ColumnSeparator, '\n');
    ParseRenderedRow(l.id, l.profile, l.suffix, l.status, l.interface, l.mobility);
  }

  lemma OneLineEach(header: seq<string>, rows: seq<string>, footer: seq<string>)
    requires forall i :: 0 <= i < |header| ==> '\n' !in header[i]
    requires forall i :: 0 <= i < |rows| ==> '\n' !in rows[i]
    requires forall i :: 0 <= i < |footer| ==> '\n' !in footer[i]
    ensures forall i :: 0 <= i < |header + rows + footer| ==> '\n' !in (header + rows + footer)[i]
  {
    var all := header + rows + footer;
    forall i | 0 <= i < |all| ensures '\n' !in all[i] {
      if i < |header| {
        assert all[i] == header[i];
      } else if i < |header| + |rows| {
        assert all[i] == rows[i - |header|];
      } else {
        assert all[i] == footer[i - |header| - |rows|];
      }
    }
  }

  /** A summary printed from WLAN fields parses back into those fields, one
      row per WLAN, the profile name stripped. */
  lemma ParseSummary(header: seq<string>, lines: seq<Line>, footer: seq<string>)
    requires |header| == 6 && |footer| == 2
    requires forall i :: 0 <= i < |header| ==> '\n' !in header[i]
    requires forall i :: 0 <= i < |footer| ==> '\n' !in footer[i]
    requires forall i :: 0 <= i < |lines| ==> Printable(lines[i])
    ensures ParseDevice(map[ShowWlanSummary := Summary(header, lines, footer)]).Success?
    ensures var d := ParseDevice(map[ShowWlanSummary := Summary(header, lines, footer)]).value;
      && Aligned(d, |lines|)
      && forall k :: 0 <= k < |lines| ==>
           RowAt(d, k) == WlanRow(lines[k].id, Strip(lines[k].profile), lines[k].status,
                                  lines[k].interface, lines[k].mobility)
  {
    var rows := RenderAll(lines);
    forall i | 0 <= i < |rows|
      ensures '\n' !in rows[i]
      ensures ParseRow(rows[i]) == Success(WlanRow(lines[i].id, Strip(lines[i].profile), lines[i].status,
                                                   lines[i].interface, lines[i].mobility))
    {
      ParsePrintable(lines[i]);
    }
    OneLineEach(header, rows, footer);
    FramedBlob(header, rows, footer);
  }

}
